=== FILE: README.md ===
# Somni sleep core in Dafny

This project models the shared core of the Somni baby-sleep app:

- **The sleep calculator.** It computes the age-based baseline wake window and adapts it to how well the baby slept recently. It also detects a timezone shift and builds a 30-minute-a-day catch-up plan for it.
- **The session manager.** It starts, ends and edits sleep sessions. It refuses to give a baby a second open session.
- **The in-memory repository.** The manager works on top of it: a `LinkedHashMap` from session id to session.
- **The default session-id generator.**

Modules follow the program's structure:

| module | file | models |
|---|---|---|
| `Wrappers` | `wrappers.dfy` | `Option` and `Result`: nullable values and thrown exceptions |
| `Seqs` | `seqs.dfy` | `filter`, `find`, `take`, `sum` and the stable `sortedByDescending` of Kotlin collections |
| `Text` | `text.dfy` | `toString`, `toString(16)`, `padStart`, `isBlank`, with parsers that invert the renderings |
| `Domain` | `domain.dfy` | `SleepSession`, `WakeWindowRecommendation`, `TimezoneAdjustment`, the thrown errors, and instant/duration arithmetic |
| `Calculator` | `calculator.dfy` | `SleepCalculator` |
| `InMemoryRepository` | `repository.dfy` | `InMemorySleepRepository` |
| `SessionIds` | `idgen.dfy` | `DefaultSessionIdGenerator` |
| `SessionManager` | `manager.dfy` | `SleepSessionManager` |
| `SessionInvariants` | `invariants.dfy` | what the manager keeps true over any sequence of calls |

## Modelling choices

- **Instants** are whole epoch milliseconds (`int`).
- **Durations.** Session lengths are whole minutes. Recommended durations are `real` minutes. Kotlin's truncating `/` on `Int` is written out as `Domain.TruncDiv`.
- **No mutable objects.** Every operation is a pure function.
  - A manager call takes the repository contents and returns a `Transition`: the new contents, plus the session it produced or the error it would throw.
  - On an error the contents are unchanged.
- **Parameters stand in for collaborators:**
  - the clock reading (`now`);
  - the id the injected generator returns (`newId`);
  - the random draw of the id generator;
  - the sessions the repository hands the calculator.
- **Repository contents** are `Repository(order, byId)`.
  - `byId` is the map.
  - `order` is the key insertion order of the `LinkedHashMap`.
  - `order` fixes which session `find` returns, the order `filter` keeps, and how the stable sort breaks ties.
- **Behaviour of the source worth noting:**
  - `updateSession` keeps the existing end time whenever no new one is given.
  - `endSleepSession` does not require the end to be after the start. A clock reading before the start gives an end before the start, with length 0.
  - A duplicate active session is an `IllegalStateException` (`Domain.Error.ActiveSessionExists`). Every other refusal is an `IllegalArgumentException`.

## Model

Paths are relative to the repository root. `SleepCalculator.kt` is `shared/src/commonMain/kotlin/com/somni/calculator/SleepCalculator.kt`, and so on, as written in each row.

| member | source | states |
|---|---|---|
| Calculator.ComputeBaselineWakeWindow | shared/src/commonMain/kotlin/com/somni/calculator/SleepCalculator.kt:16-28 | fails exactly for a negative age, with that age; otherwise the minutes of the first row of the age table (4→45, 8→60, 12→75, 16→90, 24→120, 36→150, 52→180) whose bound admits the age, else 240 |
| Calculator.BaselineMatchesTable | shared/src/commonMain/kotlin/com/somni/calculator/SleepCalculator.kt:18-27 | the `when` ladder agrees, for every age, with the baseline table read row by row |
| Calculator.BaselineMonotone | shared/src/commonMain/kotlin/com/somni/calculator/SleepCalculator.kt:18-27 | an older baby never gets a shorter baseline |
| Calculator.QualityWindow | shared/src/commonMain/kotlin/com/somni/calculator/SleepCalculator.kt:37-40 | `take(5)` of the completed sessions sorted latest end first: as many as there are completed sessions, at most five, each no more often than the list holds it, all completed and taken from the input, in non-increasing end order; empty exactly when no session is completed; the first entry ended no earlier than any completed session, and is the earliest session of the list among those that ended last |
| Calculator.QualityWindowStable | shared/src/commonMain/kotlin/com/somni/calculator/SleepCalculator.kt:39-40 | sessions that ended at the same instant appear in the window in list order, and the window keeps the earliest of them |
| Calculator.QualityWindowIsLatest | shared/src/commonMain/kotlin/com/somni/calculator/SleepCalculator.kt:38-40 | the window is non-empty when any session is completed; a window of fewer than five holds every completed session; a completed session left out ended no later than the window's last entry |
| Calculator.QualityRatio | shared/src/commonMain/kotlin/com/somni/calculator/SleepCalculator.kt:100-105 | the ratio is never negative when no duration is, and is 1 for a one-session window |
| Calculator.UniformWindowRatio | shared/src/commonMain/kotlin/com/somni/calculator/SleepCalculator.kt:100-105 | a window of equally long sessions has ratio exactly 1, the zero-mean case included |
| Calculator.ReduceMultiplier | shared/src/commonMain/kotlin/com/somni/calculator/SleepCalculator.kt:107-110 | below the poor threshold the multiplier cuts more than 10%, and at most 15% for a non-negative ratio; the cut is exactly 10% at the threshold and 15% at ratio 0 |
| Calculator.ReduceMultiplierMonotone | shared/src/commonMain/kotlin/com/somni/calculator/SleepCalculator.kt:107-110 | the poorer the ratio, the deeper the cut: the multiplier never decreases as the ratio grows |
| Calculator.IncreaseMultiplier | shared/src/commonMain/kotlin/com/somni/calculator/SleepCalculator.kt:112-115 | the multiplier lies in [1.05, 1.10], exceeds 1.05 above the excellent threshold, and is 1.10 from ratio 1.6 on |
| Calculator.CoerceIn | shared/src/commonMain/kotlin/com/somni/calculator/SleepCalculator.kt:113 | the result lies in the bounds, equals the input inside them, and equals the nearer bound outside them |
| Calculator.ReduceFactor | shared/src/commonMain/kotlin/com/somni/calculator/SleepCalculator.kt:124-125 | the coerced reduce multiplier lies in [0.70, 0.90), and in [0.85, 0.90) for a non-negative ratio |
| Calculator.IncreaseFactor | shared/src/commonMain/kotlin/com/somni/calculator/SleepCalculator.kt:133-134 | the coerced increase multiplier lies in (1.05, 1.10] |
| Calculator.ScaledWithin | shared/src/commonMain/kotlin/com/somni/calculator/SleepCalculator.kt:127 | a multiplier between two bounds scales a positive baseline to between the same multiples of the baseline, strictly where the multiplier is strictly inside |
| Calculator.Reduced | shared/src/commonMain/kotlin/com/somni/calculator/SleepCalculator.kt:123-131 | the reducing branch carries the reduce reason and confidence 0.75, and gives between 70% and 90% of the baseline (at least 85% for a non-negative ratio) |
| Calculator.Increased | shared/src/commonMain/kotlin/com/somni/calculator/SleepCalculator.kt:132-140 | the increasing branch carries the increase reason and confidence 0.75, and gives more than 105% and at most 110% of the baseline |
| Calculator.AdjustmentFromQuality | shared/src/commonMain/kotlin/com/somni/calculator/SleepCalculator.kt:117-143 | ratio below 0.70: the reduce reason, confidence 0.75 and 70%..90% of the baseline (at least 85% for a non-negative ratio); above 1.10: the increase reason, confidence 0.75 and more than 105% and at most 110%; in between: the baseline itself, no reason, confidence 0.85 |
| Calculator.ClampToBounds | shared/src/commonMain/kotlin/com/somni/calculator/SleepCalculator.kt:145-153 | the result lies within 70%..130% of the baseline; it equals the input when the input already does, the lower bound for a shorter input and the upper bound for a longer one |
| Calculator.WakeTime | shared/src/commonMain/kotlin/com/somni/calculator/SleepCalculator.kt:52-53 | with no completed session the wake time is now; otherwise it is now or the end of a completed session |
| Calculator.WakeTimeIsLatestEnd | shared/src/commonMain/kotlin/com/somni/calculator/SleepCalculator.kt:38-53 | when some session is completed, the wake time is the end of a completed session, and no completed session ended later |
| Calculator.ComputeAdaptiveWakeWindow | shared/src/commonMain/kotlin/com/somni/calculator/SleepCalculator.kt:30-64 | fails exactly for a negative age; otherwise it reports the baseline from the table and a duration within 70%..130% of it. The duration equals the baseline exactly when no reason is given, and the confidence is 0.85 without a reason and 0.75 with one. The next sleep is the wake time plus the duration, and the whole-minute multiplier lies in (0.67, 1.30] |
| Calculator.MultiplierBounds | shared/src/commonMain/kotlin/com/somni/calculator/SleepCalculator.kt:62 | truncating the duration to whole minutes keeps the multiplier above 0.67 and at most 1.30 |
| Calculator.NoHistoryGivesBaseline | shared/src/commonMain/kotlin/com/somni/calculator/SleepCalculator.kt:42-62 | with no completed session the recommendation is the baseline, without reason, at confidence 0.85, counted from now, with multiplier 1 |
| Calculator.SteadySleepKeepsBaseline | shared/src/commonMain/kotlin/com/somni/calculator/SleepCalculator.kt:42-51 | when every completed session lasted equally long, the baseline is kept, without reason, at confidence 0.85 |
| Calculator.PoorSleepReduces | shared/src/commonMain/kotlin/com/somni/calculator/SleepCalculator.kt:121-131 | a quality ratio below 0.70 shortens the window to 70%..90% of the baseline (85%..90% for a non-negative ratio), with the reduce reason and confidence 0.75 |
| Calculator.ModerateSleepKeepsBaseline | shared/src/commonMain/kotlin/com/somni/calculator/SleepCalculator.kt:141 | a quality ratio within [0.70, 1.10] keeps the baseline, without reason, at confidence 0.85 |
| Calculator.ExcellentSleepIncreases | shared/src/commonMain/kotlin/com/somni/calculator/SleepCalculator.kt:132-140 | a quality ratio above 1.10 lengthens the window to more than 105% and at most 110% of the baseline, with the increase reason and confidence 0.75 |
| Calculator.LatestEnded | shared/src/commonMain/kotlin/com/somni/calculator/SleepCalculator.kt:71-74 | none exactly when no session has ended; otherwise the earliest session of the list among the ended ones with the greatest `modifiedAt` |
| Calculator.AdjustmentSchedule | shared/src/commonMain/kotlin/com/somni/calculator/SleepCalculator.kt:89-94 | two 30-minute steps per hour of shift, starting at 30, rising by 30 each day, ending at the whole shift in minutes |
| Calculator.BuildTimezoneAdjustmentSchedule | shared/src/commonMain/kotlin/com/somni/calculator/SleepCalculator.kt:89-94 | fails exactly for a negative hour count, with that count; otherwise two steps per hour, entry i being (i+1)×30 minutes, the last being the whole shift |
| Calculator.FormatOffset | shared/src/commonMain/kotlin/com/somni/calculator/SleepCalculator.kt:155-161 | the rendering reads back to the same number of minutes and has the one form "+5", "-3:30", "+0": the sign always, the hours without leading zeros, and a colon with two minute digits exactly when the offset is not a whole number of hours |
| Calculator.DetectTimezoneChange | shared/src/commonMain/kotlin/com/somni/calculator/SleepCalculator.kt:66-87 | see "The timezone check" below |
| Domain.TruncDiv | shared/src/commonMain/kotlin/com/somni/calculator/SleepCalculator.kt:78 | Kotlin's `Int` division: the quotient's magnitude is the floor of the magnitudes' quotient, with the dividend's sign |
| Domain.DurationMinutes | shared/src/commonMain/kotlin/com/somni/session/SleepSessionManager.kt:103-106 | never negative; 0 when the end is not after the start; otherwise the whole minutes elapsed |
| SessionIds.GenerateId | shared/src/commonMain/kotlin/com/somni/session/SleepSessionManager.kt:113-120 | the id is "session-", then the clock reading written exactly as Kotlin's decimal `toString` writes it, then '-' and six hex digits, and it reads back as the clock reading and the draw |
| SessionIds.HexSuffix | shared/src/commonMain/kotlin/com/somni/session/SleepSessionManager.kt:118 | a draw in 0..0xFFFFFF always renders as exactly six hex digits that read back as the draw |
| SessionIds.GenerateIdInjective | shared/src/commonMain/kotlin/com/somni/session/SleepSessionManager.kt:116-119 | two different (clock reading, draw) pairs never give the same id |
| Text.IntToDecimal | shared/src/commonMain/kotlin/com/somni/session/SleepSessionManager.kt:119 | the decimal rendering of any integer reads back as that integer, starts with '-' exactly for a negative number, and has no leading zero |
| Text.NatToStringValue | shared/src/commonMain/kotlin/com/somni/session/SleepSessionManager.kt:118 | the digits `toString(radix)` writes have the number as their positional value |
| Seqs.Filter | shared/src/commonTest/kotlin/com/somni/session/SleepSessionManagerTestFixtures.kt:87 | keeps exactly the elements that satisfy the predicate, never more of them than there were |
| Seqs.FilterMultiset | shared/src/commonTest/kotlin/com/somni/session/SleepSessionManagerTestFixtures.kt:87 | each satisfying element is kept as often as it occurs, and no other element is kept |
| Seqs.FilterAppend | shared/src/commonTest/kotlin/com/somni/session/SleepSessionManagerTestFixtures.kt:87 | the relative order is kept: filtering a concatenation concatenates the filtered parts |
| Seqs.FilterOrderedIn | shared/src/commonTest/kotlin/com/somni/session/SleepSessionManagerTestFixtures.kt:111-113 | `filter` keeps the elements it keeps in their order in the list |
| Seqs.Find | shared/src/commonTest/kotlin/com/somni/session/SleepSessionManagerTestFixtures.kt:96 | none exactly when no element matches; otherwise the first matching element |
| Seqs.SortDesc | shared/src/commonTest/kotlin/com/somni/session/SleepSessionManagerTestFixtures.kt:88 | a permutation of the input, ordered by non-increasing key |
| Seqs.SortedFilterHead | shared/src/commonMain/kotlin/com/somni/calculator/SleepCalculator.kt:73-74 | the head of the sorted filtered list is, among the kept elements, the first in list order with the greatest key |
| Seqs.SortDescStable | shared/src/commonTest/kotlin/com/somni/session/SleepSessionManagerTestFixtures.kt:88 | elements with equal keys keep their input order |
| InMemoryRepository.FromList | shared/src/commonTest/kotlin/com/somni/session/SleepSessionManagerTestFixtures.kt:80 | the repository built from a list holds, under each id, the last session listed with that id, and nothing else; its keys are ordered by their first occurrence in the list, as `associateBy` into a `LinkedHashMap` orders them |
| InMemoryRepository.GetSession | shared/src/commonTest/kotlin/com/somni/session/SleepSessionManagerTestFixtures.kt:91-93 | found exactly when the id is stored; what is found carries that id and is among the values |
| InMemoryRepository.GetActiveSession | shared/src/commonTest/kotlin/com/somni/session/SleepSessionManagerTestFixtures.kt:95-97 | none exactly when no stored session of the baby is open; otherwise an open, stored session of the baby, and the first such in key order |
| InMemoryRepository.Store | shared/src/commonTest/kotlin/com/somni/session/SleepSessionManagerTestFixtures.kt:100 | the key maps to the new session, every other key is unchanged, and the key order is kept for an old key and extended for a new one |
| InMemoryRepository.Put | shared/src/commonTest/kotlin/com/somni/session/SleepSessionManagerTestFixtures.kt:99-105 | insert and update: the session is stored under its own id, every other id is unchanged, and the count grows only for a new id; an existing id keeps its place in the key order, and a new id goes last |
| InMemoryRepository.DeleteSession | shared/src/commonTest/kotlin/com/somni/session/SleepSessionManagerTestFixtures.kt:107-109 | the id is gone, every other id is unchanged, and the remaining keys keep their order |
| InMemoryRepository.GetSessions | shared/src/commonTest/kotlin/com/somni/session/SleepSessionManagerTestFixtures.kt:82-89 | nothing for a non-positive day count; otherwise exactly the stored sessions of the baby that started at or after the cutoff, each once, latest start first |
| InMemoryRepository.GetSessionsStable | shared/src/commonTest/kotlin/com/somni/session/SleepSessionManagerTestFixtures.kt:86-88 | sessions that started at the same instant come out in key order |
| InMemoryRepository.GetPendingSyncSessions | shared/src/commonTest/kotlin/com/somni/session/SleepSessionManagerTestFixtures.kt:111-113 | exactly the stored sessions still pending, each once, in key order |
| InMemoryRepository.MarkAsSynced | shared/src/commonTest/kotlin/com/somni/session/SleepSessionManagerTestFixtures.kt:115-121 | a stored session becomes synced and nothing else changes; an unknown id changes nothing |
| InMemoryRepository.MarkAsSyncedIdempotent | shared/src/commonTest/kotlin/com/somni/session/SleepSessionManagerTestFixtures.kt:115-121 | marking twice is marking once |
| InMemoryRepository.MarkedIsNotPending | shared/src/commonTest/kotlin/com/somni/session/SleepSessionManagerTestFixtures.kt:111-121 | after marking, the session is not among the pending ones |
| SessionManager.ActiveSessionMessage | shared/src/commonMain/kotlin/com/somni/session/SleepSessionManager.kt:22-24 | the refusal message names both the baby and the open session |
| SessionManager.StartSleepSession | shared/src/commonMain/kotlin/com/somni/session/SleepSessionManager.kt:15-44 | see "The manager calls" below |
| SessionManager.EndSleepSession | shared/src/commonMain/kotlin/com/somni/session/SleepSessionManager.kt:46-63 | see "The manager calls" below |
| SessionManager.EditKeepsClosed | shared/src/commonMain/kotlin/com/somni/session/SleepSessionManager.kt:74-78 | an edit of a closed session never reopens it |
| SessionManager.UpdateSession | shared/src/commonMain/kotlin/com/somni/session/SleepSessionManager.kt:65-95 | see "The manager calls" below |
| SessionInvariants.ActiveIsUnique | shared/src/commonMain/kotlin/com/somni/session/SleepSessionManager.kt:20-25 | under the invariant, any open session of a baby is the one `getActiveSession` returns |
| SessionInvariants.StartPreserves | shared/src/commonMain/kotlin/com/somni/session/SleepSessionManager.kt:15-44 | starting keeps the invariant |
| SessionInvariants.EndPreserves | shared/src/commonMain/kotlin/com/somni/session/SleepSessionManager.kt:46-63 | ending keeps the invariant |
| SessionInvariants.UpdatePreserves | shared/src/commonMain/kotlin/com/somni/session/SleepSessionManager.kt:65-95 | editing keeps the invariant |
| SessionInvariants.DeletePreserves | shared/src/commonTest/kotlin/com/somni/session/SleepSessionManagerTestFixtures.kt:107-109 | deleting keeps the invariant |
| SessionInvariants.MarkAsSyncedPreserves | shared/src/commonTest/kotlin/com/somni/session/SleepSessionManagerTestFixtures.kt:115-121 | marking as synced keeps the invariant |
| SessionInvariants.RunPreserves | shared/src/commonMain/kotlin/com/somni/session/SleepSessionManager.kt:15-95 | any sequence of start, end, edit, delete and mark-synced calls keeps the invariant |
| SessionInvariants.ReachableInvariant | shared/src/commonMain/kotlin/com/somni/session/SleepSessionManager.kt:15-95 | every repository reached from an empty one by these calls keeps the invariant |
| SessionInvariants.StartedIsActive | shared/src/commonMain/kotlin/com/somni/session/SleepSessionManager.kt:15-44 | a session just started is the baby's active session |
| SessionInvariants.EndThenStart | shared/src/commonMain/kotlin/com/somni/session/SleepSessionManager.kt:20-63 | ending the baby's active session always succeeds, and a new start afterwards succeeds too |

The invariant that the `SessionInvariants` rows refer to is `SessionInvariants.Invariant`:

- the repository has the shape a `LinkedHashMap` keyed by session id always has;
- no baby has two open sessions;
- a session has a length exactly when it has an end.

### The timezone check

`Calculator.DetectTimezoneChange` states:

- **No adjustment** when no session has ended.
- **No adjustment** when the current offset is within 60 minutes of the offset of the ended session modified last.
- **Otherwise an adjustment:**
  - The hour difference is non-zero and has the sign of the shift.
  - Its magnitude is the shift's whole hours.
  - It has two schedule days per hour, and day i (from 0) shifts by (i + 1) × 30 minutes.
  - The old label is "UTC" plus the `formatOffset` text of the old offset, which reads back as that offset.
  - The new label is the given timezone id unless that is blank; a blank id gives "UTC" plus the `formatOffset` text of the current offset.

### The manager calls

`SessionManager.StartSleepSession` refuses exactly when the baby has an open session.

- **On a refusal:**
  - the repository is unchanged;
  - the error is the illegal-state error, and it names the baby and the open session `getActiveSession` returns;
  - the message built from the error names that session.
- **Otherwise it stores a new session:**
  - the given id, baby and device;
  - start, creation and modification at now;
  - open, with no length and no quality score;
  - the given offset, and pending.
  - Every other id is unchanged.

`SessionManager.EndSleepSession`:

- **Refusals.** It refuses an unknown id with not-found, and a closed session with already-completed. Each exactly in its case, and the repository is then unchanged.
- **Otherwise:**
  - the end and modification time are now;
  - the length is the whole minutes elapsed, or 0 for a clock reading at or before the start;
  - every other field is kept;
  - every other id is unchanged.

`SessionManager.UpdateSession`:

- **Refusals:**
  - not-found exactly for an unknown id;
  - end-before-start exactly when the effective end is before the effective start, naming both.
- **Otherwise:**
  - the start becomes the given one or the old one;
  - the end becomes the given one or the old one;
  - the length is present exactly when an end is, and is then the whole minutes between start and end;
  - the modification time is now;
  - every other field is kept;
  - every other id is unchanged.

## Left out

- Floating point:
  - `Float`/`Double` arithmetic is exact `real` arithmetic.
  - `Duration * Double` is not rounded to nanoseconds.
  - Confidences and multipliers are the decimal constants written in the source, not their binary `Float` values.
- Integer overflow is not modelled; integers are unbounded. This covers:
  - the `Int` offset subtraction in `detectTimezoneChange`;
  - `hoursDifference * 60` in the schedule;
  - `inWholeMinutes.toInt()` for lengths beyond `Int` range;
  - `abs(Int.MIN_VALUE)` in `formatOffset`;
  - the `Long` cutoff in `getSessions`.
- Calculator.ComputeAdaptiveWakeWindow: takes the list `getSessions(babyId, days = 14)` returned, not a repository. It ignores `currentTimezoneOffsetMinutes` as the source does. The recommendation's durations are `real` minutes rather than `Duration`.
- Calculator.DetectTimezoneChange: takes the list `getSessions(babyId, days = 7)` returned, not a repository.
- Calculator.QualityRatio: states bounds and the uniform case rather than a closed form. The closed form would only repeat the definition.
- The `Mutex` of the repository and the non-atomic check-then-act of `startSleepSession` are not modelled. Each call is one atomic step.
- `scheduleWakeWindowNotification` and the `NotificationScheduler` are not modelled. The call only forwards to an injected scheduler.
- `SleepSessionManager.getActiveSession` and `getSleepHistory` are not modelled separately. They only forward to the repository's `getActiveSession` and `getSessions`, which are modelled.
- `markAsSynced` ignores its `syncedAt` argument in the source, so the model has no such parameter.
- The clock, the random source and the injected id generator are parameters (`now`, the draw, `newId`).
- SessionManager.StartSleepSession: when `newId` is already stored, the new session overwrites it, as the source's map assignment does. Nothing excludes such an id, since the generator only makes collisions unlikely.
- SessionManager.UpdateSession: the error keeps the two instants but not the exception's message text.
- SessionManager.EndSleepSession: does not guarantee end ≥ start. A clock reading before the start is stored as given, as in the source.
- The SQL-backed repository, `LocalStorage`, dependency injection, the backend and the watch app are not part of this model.

=== FILE: calculator.dfy ===
/** `SleepCalculator`: the age-based baseline wake window, its adaptation to
    the quality of recent sleep, and the detection of timezone shifts with a
    gradual catch-up schedule.

    The calculator only ever reads the list of sessions the repository hands
    it, so each operation here takes that list (and the current instant) as
    parameters instead of a repository and a clock. */
module Calculator {
  import opened Wrappers
  import opened Seqs
  import opened Domain
  import opened Text

  const RequiredSessionsForQuality: nat := 5
  const MinSessionsForAdjustment: nat := 1
  const PoorQualityThreshold: real := 0.70
  const ExcellentQualityThreshold: real := 1.10
  const ReduceMin: real := 0.10
  const ReduceMax: real := 0.15
  const IncreaseMin: real := 0.05
  const IncreaseMax: real := 0.10
  const BoundsMinMultiplier: real := 0.70
  const BoundsMaxMultiplier: real := 1.30
  const BaselineConfidence: real := 0.85
  const AdaptiveConfidence: real := 0.75
  const TimezoneChangeThresholdMinutes: nat := 60
  const IncrementMinutes: nat := 30

  const ReduceReason := "Recent sleep shorter than expected; reducing wake window."
  const IncreaseReason := "Recent sleep longer than expected; increasing wake window."

  // ---------------------------------------------------------------------
  // Baseline
  // ---------------------------------------------------------------------

  /** The baseline table as data: (inclusive upper age bound in weeks,
      wake window in minutes); older babies get `OlderBaselineMinutes`. */
  const BaselineSteps: seq<(int, int)> :=
    [(4, 45), (8, 60), (12, 75), (16, 90), (24, 120), (36, 150), (52, 180)]
  const OlderBaselineMinutes := 240

  /** Reads a step table: the minutes of the first row whose bound admits `age`. */
  function StepLookup(steps: seq<(int, int)>, age: int, otherwise: int): int
  {
    if |steps| == 0 then otherwise
    else if age <= steps[0].0 then steps[0].1
    else StepLookup(steps[1..], age, otherwise)
  }

  /** The `when` ladder of `computeBaselineWakeWindow`, for a valid age. */
  function Baseline(ageInWeeks: nat): (minutes: int)
    ensures 45 <= minutes <= 240
  {
    if ageInWeeks <= 4 then 45
    else if ageInWeeks <= 8 then 60
    else if ageInWeeks <= 12 then 75
    else if ageInWeeks <= 16 then 90
    else if ageInWeeks <= 24 then 120
    else if ageInWeeks <= 36 then 150
    else if ageInWeeks <= 52 then 180
    else 240
  }

  /** The `when` ladder agrees with the table read row by row. */
  lemma BaselineMatchesTable(ageInWeeks: nat)
    ensures Baseline(ageInWeeks) == StepLookup(BaselineSteps, ageInWeeks, OlderBaselineMinutes)
  {
    var t := BaselineSteps;
    var a := ageInWeeks;
    var o := OlderBaselineMinutes;
    assert StepLookup(t, a, o) == if a <= 4 then 45 else StepLookup(t[1..], a, o);
    assert t[1..][1..] == t[2..];
    assert StepLookup(t[1..], a, o) == if a <= 8 then 60 else StepLookup(t[2..], a, o);
    assert t[2..][1..] == t[3..];
    assert StepLookup(t[2..], a, o) == if a <= 12 then 75 else StepLookup(t[3..], a, o);
    assert t[3..][1..] == t[4..];
    assert StepLookup(t[3..], a, o) == if a <= 16 then 90 else StepLookup(t[4..], a, o);
    assert t[4..][1..] == t[5..];
    assert StepLookup(t[4..], a, o) == if a <= 24 then 120 else StepLookup(t[5..], a, o);
    assert t[5..][1..] == t[6..];
    assert StepLookup(t[5..], a, o) == if a <= 36 then 150 else StepLookup(t[6..], a, o);
    assert t[6..][1..] == [];
    assert StepLookup(t[6..], a, o) == if a <= 52 then 180 else o;
  }

  /** `computeBaselineWakeWindow`: rejects a negative age. */
  function ComputeBaselineWakeWindow(ageInWeeks: int): (r: Result<int, Error>)
    ensures r.Failure? <==> ageInWeeks < 0
    ensures r.Failure? ==> r.error == NegativeAge(ageInWeeks)
    ensures r.Success? ==> r.value == StepLookup(BaselineSteps, ageInWeeks, OlderBaselineMinutes)
  {
    if ageInWeeks < 0 then Failure(NegativeAge(ageInWeeks))
    else
      BaselineMatchesTable(ageInWeeks);
      Success(Baseline(ageInWeeks))
  }

  /** An older baby never gets a shorter baseline. */
  lemma BaselineMonotone(a: nat, b: nat)
    requires a <= b
    ensures Baseline(a) <= Baseline(b)
  {
  }

  // ---------------------------------------------------------------------
  // Quality window and ratio
  // ---------------------------------------------------------------------

  /** A session that counts towards sleep quality: it has ended and has a
      recorded duration. */
  predicate IsCompleted(s: Session)
  {
    s.endTime.Some? && s.durationMinutes.Some?
  }

  /** The sort key `endTime`; only ever applied to completed sessions. */
  function EndKey(s: Session): int
  {
    s.endTime.GetOr(0)
  }

  /** The up-to-five most recently ended completed sessions, latest first;
      on equal end times the earlier session of the list comes first. */
  function QualityWindow(sessions: seq<Session>): (w: seq<Session>)
    ensures |w| <= RequiredSessionsForQuality
    ensures |w| == Min(|Filter(sessions, IsCompleted)|, RequiredSessionsForQuality)
    ensures multiset(w) <= multiset(Filter(sessions, IsCompleted))
    ensures forall i :: 0 <= i < |w| ==> w[i] in sessions && IsCompleted(w[i])
    ensures SortedDesc(w, EndKey)
    ensures |w| == 0 <==> forall s :: s in sessions ==> !IsCompleted(s)
    ensures |w| > 0 ==> forall s | s in sessions && IsCompleted(s) :: EndKey(s) <= EndKey(w[0])
    ensures |w| > 0 ==> exists i :: FirstOfItsKey(sessions, IsCompleted, EndKey, i) && sessions[i] == w[0]
  {
    var sorted := SortDesc(Filter(sessions, IsCompleted), EndKey);
    WindowMembers(sessions);
    WindowHeadIsMax(sessions);
    WindowHead(sessions);
    WindowSorted(sorted, RequiredSessionsForQuality);
    WindowCounts(sessions);
    Take(sorted, RequiredSessionsForQuality)
  }

  function Min(a: nat, b: nat): nat
  {
    if a < b then a else b
  }

  /** The window keeps as many completed sessions as there are, up to five,
      and each of them no more often than the list holds it. */
  lemma WindowCounts(sessions: seq<Session>)
    ensures var completed := Filter(sessions, IsCompleted);
      var w := Take(SortDesc(completed, EndKey), RequiredSessionsForQuality);
      && |w| == Min(|completed|, RequiredSessionsForQuality)
      && multiset(w) <= multiset(completed)
  {
    var completed := Filter(sessions, IsCompleted);
    var sorted := SortDesc(completed, EndKey);
    var w := Take(sorted, RequiredSessionsForQuality);
    assert |sorted| == |completed| by {
      assert |multiset(sorted)| == |multiset(completed)|;
    }
    assert sorted == w + sorted[|w|..];
    assert multiset(sorted) == multiset(w) + multiset(sorted[|w|..]);
  }

  /** A prefix of a sorted list is sorted. */
  lemma WindowSorted(sorted: seq<Session>, n: nat)
    requires SortedDesc(sorted, EndKey)
    ensures SortedDesc(Take(sorted, n), EndKey)
  {
    var w := Take(sorted, n);
    forall i, j | 0 <= i < j < |w|
      ensures EndKey(w[i]) >= EndKey(w[j])
    {
      assert w[i] == sorted[i] && w[j] == sorted[j];
    }
  }

  /** Every entry of the window is a completed session of the list. */
  lemma WindowMembers(sessions: seq<Session>)
    ensures var w := Take(SortDesc(Filter(sessions, IsCompleted), EndKey), RequiredSessionsForQuality);
      forall i :: 0 <= i < |w| ==> w[i] in sessions && IsCompleted(w[i])
  {
    var completed := Filter(sessions, IsCompleted);
    var sorted := SortDesc(completed, EndKey);
    var w := Take(sorted, RequiredSessionsForQuality);
    forall i | 0 <= i < |w|
      ensures w[i] in sessions && IsCompleted(w[i])
    {
      assert w[i] == sorted[i];
      assert sorted[i] in multiset(completed);
    }
  }

  /** The window is empty only when no session is completed, and it starts
      with a session that ended last. */
  lemma WindowHeadIsMax(sessions: seq<Session>)
    ensures var w := Take(SortDesc(Filter(sessions, IsCompleted), EndKey), RequiredSessionsForQuality);
      && (|w| == 0 <==> forall s :: s in sessions ==> !IsCompleted(s))
      && (|w| > 0 ==> forall s | s in sessions && IsCompleted(s) :: EndKey(s) <= EndKey(w[0]))
  {
    var completed := Filter(sessions, IsCompleted);
    var sorted := SortDesc(completed, EndKey);
    var w := Take(sorted, RequiredSessionsForQuality);
    forall s | s in sessions && IsCompleted(s)
      ensures |w| > 0 && EndKey(s) <= EndKey(w[0])
    {
      assert s in completed;
      SortDescHeadIsMax(completed, EndKey, s);
    }
    if |w| > 0 {
      assert sorted[0] in multiset(completed);
    }
  }

  /** The window starts with the first session of the list among those that
      ended last. */
  lemma WindowHead(sessions: seq<Session>)
    ensures var w := Take(SortDesc(Filter(sessions, IsCompleted), EndKey), RequiredSessionsForQuality);
      |w| > 0 ==> exists i :: FirstOfItsKey(sessions, IsCompleted, EndKey, i) && sessions[i] == w[0]
  {
    var sorted := SortDesc(Filter(sessions, IsCompleted), EndKey);
    if |sorted| > 0 {
      SortedFilterHead(sessions, IsCompleted, EndKey);
      assert Take(sorted, RequiredSessionsForQuality)[0] == sorted[0];
    }
  }

  /** A completed session is in the sorted list the window is cut from. */
  lemma CompletedIsSorted(sessions: seq<Session>, s: Session)
    requires s in sessions && IsCompleted(s)
    ensures s in SortDesc(Filter(sessions, IsCompleted), EndKey)
  {
    var completed := Filter(sessions, IsCompleted);
    assert s in completed;
    assert s in multiset(completed);
  }

  /** The window holds the latest completed sessions: it is empty only when
      none is completed, holds all of them when it is not full, and every
      completed session it leaves out ended no later than its last entry. */
  lemma QualityWindowIsLatest(sessions: seq<Session>, s: Session)
    requires s in sessions && IsCompleted(s)
    ensures var w := QualityWindow(sessions);
      && |w| > 0
      && (|w| < RequiredSessionsForQuality ==> s in w)
      && (s !in w ==> EndKey(s) <= EndKey(w[|w| - 1]))
  {
    var sorted := SortDesc(Filter(sessions, IsCompleted), EndKey);
    var w := QualityWindow(sessions);
    assert w == Take(sorted, RequiredSessionsForQuality);
    CompletedIsSorted(sessions, s);
    var j :| 0 <= j < |sorted| && sorted[j] == s;
    if j < |w| {
      assert w[j] == s;
    } else {
      assert EndKey(sorted[|w| - 1]) >= EndKey(sorted[j]);
    }
  }

  /** Sessions that ended at the same instant keep their list order in the
      window, and the window keeps the earliest of them. */
  lemma QualityWindowStable(sessions: seq<Session>, k: int)
    ensures WithKey(QualityWindow(sessions), EndKey, k) <= WithKey(Filter(sessions, IsCompleted), EndKey, k)
  {
    var completed := Filter(sessions, IsCompleted);
    var sorted := SortDesc(completed, EndKey);
    SortDescStable(completed, EndKey, k);
    var w := QualityWindow(sessions);
    assert w == sorted[..|w|];
    WithKeyPrefix(sorted, |w|, EndKey, k);
  }

  /** The window's durations in minutes (the source's `durationMinutes!!`). */
  function WindowMinutes(w: seq<Session>): (ds: seq<int>)
    requires forall i :: 0 <= i < |w| ==> w[i].durationMinutes.Some?
    ensures |ds| == |w|
    ensures forall i :: 0 <= i < |w| ==> ds[i] == w[i].durationMinutes.value
  {
    seq(|w|, i requires 0 <= i < |w| => w[i].durationMinutes.value)
  }

  /** The average of a non-empty list of minutes (Kotlin's `average()`). */
  function Mean(ds: seq<int>): real
    requires |ds| >= 1
  {
    Sum(ds) as real / |ds| as real
  }

  /** `computeQualityRatio`: the latest session's minutes over the mean of the
      whole window (the latest session included); 1.0 when the mean is 0. */
  function QualityRatio(w: seq<Session>): (ratio: real)
    requires |w| >= 1
    requires forall i :: 0 <= i < |w| ==> w[i].durationMinutes.Some?
    ensures (forall i :: 0 <= i < |w| ==> w[i].durationMinutes.value >= 0) ==> ratio >= 0.0
    ensures |w| == 1 ==> ratio == 1.0
  {
    var ds := WindowMinutes(w);
    var expected := Mean(ds);
    assert |w| == 1 ==> expected == ds[0] as real by {
      if |w| == 1 {
        assert ds[1..] == [];
        assert Sum(ds) == ds[0];
      }
    }
    assert (forall i :: 0 <= i < |w| ==> ds[i] >= 0) ==> Sum(ds) >= 0 by {
      if forall i :: 0 <= i < |w| ==> ds[i] >= 0 {
        SumNonNegative(ds);
      }
    }
    if expected == 0.0 then 1.0
    else
      SelfRatio(expected);
      ds[0] as real / expected
  }

  /** A window of equally long sessions has ratio exactly 1. */
  lemma UniformWindowRatio(w: seq<Session>, d: int)
    requires |w| >= 1
    requires forall i :: 0 <= i < |w| ==> w[i].durationMinutes == Some(d)
    ensures QualityRatio(w) == 1.0
  {
    var ds := WindowMinutes(w);
    assert forall j :: 0 <= j < |ds| ==> ds[j] == d;
    SumConstant(ds, d);
    MeanOfConstant(|ds|, d);
    assert Mean(ds) == d as real;
    SelfRatio(d as real);
  }

  lemma SelfRatio(x: real)
    ensures x != 0.0 ==> x / x == 1.0
  {
  }

  /** `n` copies of `d` average to `d`. */
  lemma MeanOfConstant(n: nat, d: int)
    requires n > 0
    ensures (n * d) as real / n as real == d as real
  {
    assert (n * d) as real == n as real * d as real;
  }

  // ---------------------------------------------------------------------
  // Multipliers and bounds
  // ---------------------------------------------------------------------

  /** Kotlin's `coerceIn`. */
  function CoerceIn(x: real, lo: real, hi: real): (r: real)
    requires lo <= hi
    ensures lo <= r <= hi
    ensures lo <= x <= hi ==> r == x
    ensures x <= lo ==> r == lo
    ensures hi <= x ==> r == hi
  {
    if x < lo then lo else if x > hi then hi else x
  }

  /** `computeReduceMultiplier`: the poorer the ratio, the deeper the cut,
      from 10% at the threshold to 15% at ratio 0. */
  function ReduceMultiplier(ratio: real): (m: real)
    ensures ratio < PoorQualityThreshold ==> m < 0.90
    ensures 0.0 <= ratio < PoorQualityThreshold ==> 0.85 <= m
    ensures ratio == PoorQualityThreshold ==> m == 1.0 - ReduceMin
    ensures ratio == 0.0 ==> m == 1.0 - ReduceMax
  {
    var factor := 1.0 - ratio / PoorQualityThreshold;
    1.0 - (ReduceMin + (ReduceMax - ReduceMin) * factor)
  }

  /** A poorer ratio never gives a shallower cut. */
  lemma ReduceMultiplierMonotone(r1: real, r2: real)
    requires r1 <= r2
    ensures ReduceMultiplier(r1) <= ReduceMultiplier(r2)
  {
    assert r1 / PoorQualityThreshold <= r2 / PoorQualityThreshold;
  }

  /** `computeIncreaseMultiplier`: 5% at the threshold, rising to 10% at
      ratio 1.6 and capped there. */
  function IncreaseMultiplier(ratio: real): (m: real)
    ensures 1.05 <= m <= 1.10
    ensures ratio > ExcellentQualityThreshold ==> m > 1.05
    ensures ratio >= 1.60 ==> m == 1.10
  {
    var excessRatio := CoerceIn((ratio - ExcellentQualityThreshold) / 0.5, 0.0, 1.0);
    1.0 + (IncreaseMin + (IncreaseMax - IncreaseMin) * excessRatio)
  }

  /** `clampToBounds`: keeps a duration within 70%..130% of the baseline. */
  function ClampToBounds(adjusted: real, baseline: real): (r: real)
    requires baseline >= 0.0
    ensures BoundsMinMultiplier * baseline <= r <= BoundsMaxMultiplier * baseline
    ensures BoundsMinMultiplier * baseline <= adjusted <= BoundsMaxMultiplier * baseline ==> r == adjusted
    ensures adjusted < BoundsMinMultiplier * baseline ==> r == BoundsMinMultiplier * baseline
    ensures adjusted > BoundsMaxMultiplier * baseline ==> r == BoundsMaxMultiplier * baseline
  {
    var lower := baseline * BoundsMinMultiplier;
    var upper := baseline * BoundsMaxMultiplier;
    if adjusted < lower then lower else if adjusted > upper then upper else adjusted
  }

  /** The `Triple` that `computeAdjustmentFromQuality` returns. */
  datatype Adjustment = Adjustment(duration: real, reason: Option<string>, confidence: real)

  /** Kotlin's `Duration * Double`: a duration in minutes scaled by a
      multiplier. */
  function Scale(minutes: real, multiplier: real): real
  {
    minutes * multiplier
  }

  /** A multiplier between `lo` and `hi` scales a positive baseline to a
      duration between `lo` and `hi` times the baseline. */
  lemma ScaledWithin(b: real, m: real, lo: real, hi: real)
    requires b > 0.0
    requires lo <= m <= hi
    ensures lo * b <= Scale(b, m) <= hi * b
    ensures lo < m ==> lo * b < Scale(b, m)
    ensures m < hi ==> Scale(b, m) < hi * b
  {
    assert b * m - lo * b == b * (m - lo);
    assert hi * b - b * m == b * (hi - m);
  }

  /** The reduce multiplier as the reducing branch uses it, coerced into the
      bounds. */
  function ReduceFactor(ratio: real): (m: real)
    requires ratio < PoorQualityThreshold
    ensures BoundsMinMultiplier <= m < 0.90
    ensures ratio >= 0.0 ==> 0.85 <= m
  {
    CoerceIn(ReduceMultiplier(ratio), BoundsMinMultiplier, BoundsMaxMultiplier)
  }

  /** The increase multiplier as the increasing branch uses it, coerced into
      the bounds. */
  function IncreaseFactor(ratio: real): (m: real)
    requires ratio > ExcellentQualityThreshold
    ensures 1.05 < m <= 1.10
  {
    CoerceIn(IncreaseMultiplier(ratio), BoundsMinMultiplier, BoundsMaxMultiplier)
  }

  /** The reducing branch: the baseline scaled by the coerced reduce
      multiplier. */
  function Reduced(baseline: real, ratio: real): (a: Adjustment)
    requires baseline > 0.0
    requires ratio < PoorQualityThreshold
    ensures a.reason == Some(ReduceReason) && a.confidence == AdaptiveConfidence
    ensures 0.70 * baseline <= a.duration < 0.90 * baseline
    ensures ratio >= 0.0 ==> 0.85 * baseline <= a.duration
  {
    var m := ReduceFactor(ratio);
    ScaledWithin(baseline, m, 0.70, 0.90);
    ScaledWithin(baseline, m, if ratio >= 0.0 then 0.85 else m, 0.90);
    Adjustment(Scale(baseline, m), Some(ReduceReason), AdaptiveConfidence)
  }

  /** The increasing branch: the baseline scaled by the coerced increase
      multiplier. */
  function Increased(baseline: real, ratio: real): (a: Adjustment)
    requires baseline > 0.0
    requires ratio > ExcellentQualityThreshold
    ensures a.reason == Some(IncreaseReason) && a.confidence == AdaptiveConfidence
    ensures 1.05 * baseline < a.duration <= 1.10 * baseline
  {
    var m := IncreaseFactor(ratio);
    ScaledWithin(baseline, m, 1.05, 1.10);
    Adjustment(Scale(baseline, m), Some(IncreaseReason), AdaptiveConfidence)
  }

  /** `computeAdjustmentFromQuality` for a non-empty window of completed
      sessions and a positive baseline (in minutes). */
  function AdjustmentFromQuality(baseline: int, w: seq<Session>): (a: Adjustment)
    requires baseline > 0
    requires |w| >= 1
    requires forall i :: 0 <= i < |w| ==> w[i].durationMinutes.Some?
    ensures var ratio := QualityRatio(w);
      var b := baseline as real;
      && (ratio < PoorQualityThreshold ==>
            && a.reason == Some(ReduceReason) && a.confidence == AdaptiveConfidence
            && 0.70 * b <= a.duration < 0.90 * b
            && (ratio >= 0.0 ==> 0.85 * b <= a.duration))
      && (ratio > ExcellentQualityThreshold ==>
            && a.reason == Some(IncreaseReason) && a.confidence == AdaptiveConfidence
            && 1.05 * b < a.duration <= 1.10 * b)
      && (PoorQualityThreshold <= ratio <= ExcellentQualityThreshold ==>
            a.duration == b && a.reason.None? && a.confidence == BaselineConfidence)
  {
    var ratio := QualityRatio(w);
    if ratio < PoorQualityThreshold then Reduced(baseline as real, ratio)
    else if ratio > ExcellentQualityThreshold then Increased(baseline as real, ratio)
    else Adjustment(baseline as real, None, BaselineConfidence)
  }

  // ---------------------------------------------------------------------
  // Adaptive recommendation
  // ---------------------------------------------------------------------

  /** The wake time the next window counts from: the end of the first
      session of the quality window, or `now` when the window is empty. */
  function WakeTime(sessions: seq<Session>, now: int): (t: int)
    ensures (forall s :: s in sessions ==> !IsCompleted(s)) ==> t == now
    ensures t == now || exists s :: s in sessions && IsCompleted(s) && t == EndKey(s)
  {
    var w := QualityWindow(sessions);
    if |w| == 0 then now else EndKey(w[0])
  }

  /** No completed session ended after the wake time: the next window counts
      from the latest end among the completed sessions. */
  lemma WakeTimeIsLatestEnd(sessions: seq<Session>, now: int, u: Session)
    requires u in sessions && IsCompleted(u)
    ensures exists s :: s in sessions && IsCompleted(s) && WakeTime(sessions, now) == EndKey(s)
    ensures EndKey(u) <= WakeTime(sessions, now)
  {
    var w := QualityWindow(sessions);
    QualityWindowIsLatest(sessions, u);
    assert w[0] in sessions && IsCompleted(w[0]);
    if u in w {
      var j :| 0 <= j < |w| && w[j] == u;
      if j > 0 {
        assert EndKey(w[0]) >= EndKey(w[j]);
      }
    } else if |w| > 1 {
      assert EndKey(w[0]) >= EndKey(w[|w| - 1]);
    }
  }

  /** `computeAdaptiveWakeWindow` over the sessions the repository returned
      for the last 14 days. */
  function ComputeAdaptiveWakeWindow(ageInWeeks: int, sessions: seq<Session>, now: int)
    : (r: Result<WakeWindowRecommendation, Error>)
    ensures r.Failure? <==> ageInWeeks < 0
    ensures r.Failure? ==> r.error == NegativeAge(ageInWeeks)
    ensures r.Success? ==>
      var rec := r.value;
      var b := rec.baselineWindow as real;
      && rec.baselineWindow == StepLookup(BaselineSteps, ageInWeeks, OlderBaselineMinutes)
      && BoundsMinMultiplier * b <= rec.duration <= BoundsMaxMultiplier * b
      && (rec.adjustmentReason.None? <==> rec.duration == b)
      && (rec.adjustmentReason.None? <==> rec.confidence == BaselineConfidence)
      && (rec.adjustmentReason.Some? <==> rec.confidence == AdaptiveConfidence)
      && rec.nextSleepTime == WakeTime(sessions, now) as real + rec.duration * MillisPerMinute as real
      && 0.67 < rec.adjustmentMultiplier <= BoundsMaxMultiplier
  {
    if ageInWeeks < 0 then Failure(NegativeAge(ageInWeeks))
    else
      var baseline := Baseline(ageInWeeks);
      BaselineMatchesTable(ageInWeeks);
      var b := baseline as real;
      var w := QualityWindow(sessions);
      var adjustment :=
        if |w| < MinSessionsForAdjustment then Adjustment(b, None, BaselineConfidence)
        else AdjustmentFromQuality(baseline, w);
      var clamped := ClampToBounds(adjustment.duration, b);
      assert clamped == adjustment.duration;
      var multiplier := clamped.Floor as real / b;
      MultiplierBounds(clamped, baseline);
      Success(WakeWindowRecommendation(
        clamped, adjustment.reason, adjustment.confidence,
        WakeTime(sessions, now) as real + clamped * MillisPerMinute as real,
        baseline, multiplier))
  }

  /** With no completed session in the last 14 days the recommendation is
      the baseline itself, counted from now, at baseline confidence. */
  lemma NoHistoryGivesBaseline(ageInWeeks: nat, sessions: seq<Session>, now: int)
    requires forall s :: s in sessions ==> !IsCompleted(s)
    ensures var r := ComputeAdaptiveWakeWindow(ageInWeeks, sessions, now);
      var b := Baseline(ageInWeeks) as real;
      && r.Success?
      && r.value.duration == b
      && r.value.adjustmentReason.None?
      && r.value.confidence == BaselineConfidence
      && r.value.nextSleepTime == now as real + b * MillisPerMinute as real
      && r.value.adjustmentMultiplier == 1.0
  {
    var w := QualityWindow(sessions);
    assert |w| == 0;
    var b := Baseline(ageInWeeks) as real;
    assert b.Floor as real == b;
    SelfRatio(b);
  }

  /** When every completed session lasted the same number of minutes the
      latest one is exactly average, and the baseline is kept. */
  lemma SteadySleepKeepsBaseline(ageInWeeks: nat, sessions: seq<Session>, now: int, d: int)
    requires forall s :: s in sessions && IsCompleted(s) ==> s.durationMinutes == Some(d)
    ensures var r := ComputeAdaptiveWakeWindow(ageInWeeks, sessions, now);
      && r.Success?
      && r.value.duration == Baseline(ageInWeeks) as real
      && r.value.adjustmentReason.None?
      && r.value.confidence == BaselineConfidence
  {
    var w := QualityWindow(sessions);
    if |w| >= 1 {
      UniformWindowRatio(w, d);
    }
  }

  /** A latest sleep well under the recent average shortens the window: by
      10% to 30% of the baseline, and by at most 15% when no duration is
      negative. */
  lemma PoorSleepReduces(ageInWeeks: nat, sessions: seq<Session>, now: int)
    requires |QualityWindow(sessions)| >= 1
    requires QualityRatio(QualityWindow(sessions)) < PoorQualityThreshold
    ensures var r := ComputeAdaptiveWakeWindow(ageInWeeks, sessions, now);
      var b := Baseline(ageInWeeks) as real;
      && r.Success?
      && 0.70 * b <= r.value.duration < 0.90 * b
      && r.value.adjustmentReason == Some(ReduceReason)
      && r.value.confidence == AdaptiveConfidence
      && (QualityRatio(QualityWindow(sessions)) >= 0.0 ==> 0.85 * b <= r.value.duration)
  {
  }

  /** A latest sleep within the expected band keeps the baseline. */
  lemma ModerateSleepKeepsBaseline(ageInWeeks: nat, sessions: seq<Session>, now: int)
    requires |QualityWindow(sessions)| >= 1
    requires PoorQualityThreshold <= QualityRatio(QualityWindow(sessions)) <= ExcellentQualityThreshold
    ensures var r := ComputeAdaptiveWakeWindow(ageInWeeks, sessions, now);
      && r.Success?
      && r.value.duration == Baseline(ageInWeeks) as real
      && r.value.adjustmentReason.None?
      && r.value.confidence == BaselineConfidence
  {
  }

  /** A latest sleep well over the recent average lengthens the window by
      more than 5% and at most 10% of the baseline. */
  lemma ExcellentSleepIncreases(ageInWeeks: nat, sessions: seq<Session>, now: int)
    requires |QualityWindow(sessions)| >= 1
    requires QualityRatio(QualityWindow(sessions)) > ExcellentQualityThreshold
    ensures var r := ComputeAdaptiveWakeWindow(ageInWeeks, sessions, now);
      var b := Baseline(ageInWeeks) as real;
      && r.Success?
      && 1.05 * b < r.value.duration <= 1.10 * b
      && r.value.adjustmentReason == Some(IncreaseReason)
      && r.value.confidence == AdaptiveConfidence
  {
  }

  /** The whole-minute multiplier stays close to the real one: the floor
      loses less than one minute, which is under 3% of any baseline. */
  lemma MultiplierBounds(d: real, baseline: int)
    requires 45 <= baseline
    requires 0.70 * baseline as real <= d <= 1.30 * baseline as real
    ensures 0.67 < d.Floor as real / baseline as real <= 1.30
  {
    var b := baseline as real;
    var f := d.Floor as real;
    assert f <= d && d < f + 1.0;
    assert f > 0.67 * b by {
      assert 0.70 * b - 1.0 >= 0.67 * b + 0.35;
    }
    assert f / b <= 1.30 by {
      assert f <= 1.30 * b;
    }
  }

  // ---------------------------------------------------------------------
  // Timezone shift
  // ---------------------------------------------------------------------

  predicate HasEnded(s: Session)
  {
    s.endTime.Some?
  }

  function ModifiedKey(s: Session): int
  {
    s.modifiedAt
  }

  /** The ended session with the greatest `modifiedAt` (the first such one
      in the list on a tie, since the sort is stable). */
  function LatestEnded(sessions: seq<Session>): (r: Option<Session>)
    ensures r.None? <==> forall s :: s in sessions ==> !HasEnded(s)
    ensures r.Some? ==> r.value in sessions && HasEnded(r.value)
    ensures r.Some? ==> forall s :: s in sessions && HasEnded(s) ==> s.modifiedAt <= r.value.modifiedAt
    ensures r.Some? ==> exists i :: FirstOfItsKey(sessions, HasEnded, ModifiedKey, i) && sessions[i] == r.value
  {
    var ended := Filter(sessions, HasEnded);
    assert |ended| > 0 ==>
      exists i :: FirstOfItsKey(sessions, HasEnded, ModifiedKey, i)
               && sessions[i] == SortDesc(ended, ModifiedKey)[0] by {
      if |ended| > 0 {
        SortedFilterHead(sessions, HasEnded, ModifiedKey);
      }
    }
    var sorted := SortDesc(ended, ModifiedKey);
    if |sorted| == 0 then
      assert forall s :: s in sessions ==> !HasEnded(s);
      None
    else
      assert sorted[0] in multiset(ended);
      assert forall s | s in sessions && HasEnded(s) :: s.modifiedAt <= sorted[0].modifiedAt by {
        forall s | s in sessions && HasEnded(s)
          ensures s.modifiedAt <= sorted[0].modifiedAt
        {
          SortDescHeadIsMax(ended, ModifiedKey, s);
        }
      }
      Some(sorted[0])
  }

  /** `buildTimezoneAdjustmentSchedule` for a valid (non-negative) hour count:
      one 30-minute step per day until the whole shift is covered. */
  function AdjustmentSchedule(hours: nat): (schedule: seq<int>)
    ensures |schedule| == 2 * hours
    ensures hours > 0 ==> schedule[0] == IncrementMinutes
    ensures forall i :: 0 < i < |schedule| ==> schedule[i] - schedule[i - 1] == IncrementMinutes
    ensures hours > 0 ==> schedule[|schedule| - 1] == hours * 60
  {
    var totalMinutes := hours * 60;
    var numberOfDays := (totalMinutes + IncrementMinutes - 1) / IncrementMinutes;
    seq(numberOfDays, i => (i + 1) * IncrementMinutes)
  }

  /** `buildTimezoneAdjustmentSchedule`: rejects a negative hour count. */
  function BuildTimezoneAdjustmentSchedule(hoursDifference: int): (r: Result<seq<int>, Error>)
    ensures r.Failure? <==> hoursDifference < 0
    ensures r.Failure? ==> r.error == NegativeHoursDifference(hoursDifference)
    ensures r.Success? ==> |r.value| == 2 * hoursDifference
    ensures r.Success? && hoursDifference > 0 ==> r.value[|r.value| - 1] == hoursDifference * 60
    ensures r.Success? ==> forall i :: 0 <= i < |r.value| ==> r.value[i] == (i + 1) * IncrementMinutes
  {
    if hoursDifference < 0 then Failure(NegativeHoursDifference(hoursDifference))
    else Success(AdjustmentSchedule(hoursDifference))
  }

  /** `formatOffset`: "+5", "-3:30", "+0". The sign is always written, the
      hours carry no leading zero, and the minutes appear, as two digits after
      a colon, only when the offset is not a whole number of hours. */
  function FormatOffset(offsetMinutes: int): (s: string)
    ensures ParseOffset(s) == Some(offsetMinutes)
    ensures |s| >= 2 && s[0] == (if offsetMinutes >= 0 then '+' else '-')
    ensures var hoursText := NatToString(Abs(offsetMinutes) / 60, 10);
      && |s| >= 1 + |hoursText|
      && s[1..1 + |hoursText|] == hoursText
      && (Abs(offsetMinutes) % 60 == 0 ==> |s| == 1 + |hoursText|)
      && (Abs(offsetMinutes) % 60 != 0 ==> |s| == 1 + |hoursText| + 3 && s[1 + |hoursText|] == ':')
    ensures (':' in s) <==> Abs(offsetMinutes) % 60 != 0
  {
    var hoursText := NatToString(Abs(offsetMinutes) / 60, 10);
    var minutes := Abs(offsetMinutes) % 60;
    if minutes == 0 then
      WholeHoursOffset(offsetMinutes);
      SignText(offsetMinutes) + hoursText
    else
      PartHourOffset(offsetMinutes);
      SignText(offsetMinutes) + hoursText + ":" + PadStart(NatToString(minutes, 10), 2, '0')
  }

  function SignText(offsetMinutes: int): string
  {
    if offsetMinutes >= 0 then "+" else "-"
  }

  /** The properties `FormatOffset` promises of its text `s`. */
  ghost predicate IsOffsetText(offsetMinutes: int, s: string)
  {
    var hoursText := NatToString(Abs(offsetMinutes) / 60, 10);
    && ParseOffset(s) == Some(offsetMinutes)
    && |s| >= 2 && s[0] == (if offsetMinutes >= 0 then '+' else '-')
    && |s| >= 1 + |hoursText|
    && s[1..1 + |hoursText|] == hoursText
    && (Abs(offsetMinutes) % 60 == 0 ==> |s| == 1 + |hoursText|)
    && (Abs(offsetMinutes) % 60 != 0 ==> |s| == 1 + |hoursText| + 3 && s[1 + |hoursText|] == ':')
    && ((':' in s) <==> Abs(offsetMinutes) % 60 != 0)
  }

  /** A whole number of hours is written as the sign and the hours. */
  lemma WholeHoursOffset(offsetMinutes: int)
    requires Abs(offsetMinutes) % 60 == 0
    ensures IsOffsetText(offsetMinutes, SignText(offsetMinutes) + NatToString(Abs(offsetMinutes) / 60, 10))
  {
    var sign := SignText(offsetMinutes);
    var hours := Abs(offsetMinutes) / 60;
    var hoursText := NatToString(hours, 10);
    ParseNatRoundTrip(hours, 10);
    ParseWholeHours(sign, hoursText, hours, offsetMinutes);
    WholeHoursShape(sign, hoursText);
  }

  /** Any other offset is written as the sign, the hours, a colon and two
      minute digits. */
  lemma PartHourOffset(offsetMinutes: int)
    requires Abs(offsetMinutes) % 60 != 0
    ensures var minutes := Abs(offsetMinutes) % 60;
      IsOffsetText(offsetMinutes, SignText(offsetMinutes) + NatToString(Abs(offsetMinutes) / 60, 10)
                                  + ":" + PadStart(NatToString(minutes, 10), 2, '0'))
  {
    var sign := SignText(offsetMinutes);
    var hours := Abs(offsetMinutes) / 60;
    var minutes := Abs(offsetMinutes) % 60;
    var hoursText := NatToString(hours, 10);
    var minutesText := PadStart(NatToString(minutes, 10), 2, '0');
    ParseNatRoundTrip(hours, 10);
    PaddedMinutes(minutes);
    ParseHoursAndMinutes(sign, hoursText, hours, minutesText, minutes, offsetMinutes);
    MinutesShape(sign, hoursText, minutesText);
  }

  /** "+h" and "-h": the sign, then the hour digits, and no colon. */
  lemma WholeHoursShape(sign: string, hoursText: string)
    requires (sign == "+" || sign == "-") && IsDigits(hoursText, 10)
    ensures var s := sign + hoursText;
      && |s| == 1 + |hoursText| && s[0] == sign[0]
      && s[1..1 + |hoursText|] == hoursText
      && ':' !in s
  {
    var s := sign + hoursText;
    assert s[1..] == hoursText;
    forall i | 1 <= i < |s|
      ensures s[i] != ':'
    {
      assert s[i] == hoursText[i - 1];
    }
  }

  /** "+h:mm" and "-h:mm": the sign, the hour digits, a colon, two digits. */
  lemma MinutesShape(sign: string, hoursText: string, minutesText: string)
    requires (sign == "+" || sign == "-") && |minutesText| == 2
    ensures var s := sign + hoursText + ":" + minutesText;
      && |s| == 1 + |hoursText| + 3 && s[0] == sign[0]
      && s[1..1 + |hoursText|] == hoursText
      && s[1 + |hoursText|] == ':'
      && ':' in s
  {
    var s := sign + hoursText + ":" + minutesText;
    assert s[1..1 + |hoursText|] == hoursText;
    assert s[1 + |hoursText|] == ':';
  }

  /** Reading "+h" or "-h" back. */
  lemma ParseWholeHours(sign: string, hoursText: string, h: nat, v: int)
    requires sign == "+" || sign == "-"
    requires ParseNat(hoursText, 10) == Some(h)
    requires v == if sign == "-" then 0 - h * 60 else h * 60
    ensures ParseOffset(sign + hoursText) == Some(v)
  {
    var s := sign + hoursText;
    assert s[1..] == hoursText;
    assert |hoursText| >= 4 ==> DigitValue(hoursText[|hoursText| - 3]) >= 0;
    assert ParseNat("0", 10) == Some(0) by {
      assert "0"[..0] == "";
    }
  }

  /** Reading "+h:mm" or "-h:mm" back. */
  lemma ParseHoursAndMinutes(sign: string, hoursText: string, h: nat, minutesText: string, m: nat, v: int)
    requires sign == "+" || sign == "-"
    requires ParseNat(hoursText, 10) == Some(h)
    requires ParseNat(minutesText, 10) == Some(m) && |minutesText| == 2 && m < 60
    requires v == if sign == "-" then 0 - (h * 60 + m) else h * 60 + m
    ensures ParseOffset(sign + hoursText + ":" + minutesText) == Some(v)
  {
    var s := sign + hoursText + ":" + minutesText;
    var body := hoursText + ":" + minutesText;
    assert s[1..] == body;
    assert body[|body| - 3] == ':';
    assert body[..|body| - 3] == hoursText;
    assert body[|body| - 2..] == minutesText;
  }

  /** The minutes part of an offset: always two digits, read back exactly. */
  lemma PaddedMinutes(minutes: nat)
    requires minutes < 60
    ensures ParseNat(PadStart(NatToString(minutes, 10), 2, '0'), 10) == Some(minutes)
    ensures |PadStart(NatToString(minutes, 10), 2, '0')| == 2
  {
    var digits := NatToString(minutes, 10);
    assert Pow(10, 2) == 100 by {
      assert Pow(10, 1) == 10 * Pow(10, 0);
    }
    NatToStringLength(minutes, 10, 2);
    NatToStringValue(minutes, 10);
    var padded := PadStart(digits, 2, '0');
    if |digits| == 1 {
      assert padded == "0" + digits;
      LeadingZeros("0", digits, 10);
    } else {
      assert padded == digits;
    }
  }

  /** Reads an offset written by `FormatOffset` back into minutes. */
  function ParseOffset(s: string): Option<int>
  {
    if |s| < 2 || (s[0] != '+' && s[0] != '-') then None
    else
      var body := s[1..];
      var hasMinutes := |body| >= 4 && body[|body| - 3] == ':';
      var hoursText := if hasMinutes then body[..|body| - 3] else body;
      var minutesText := if hasMinutes then body[|body| - 2..] else "0";
      match (ParseNat(hoursText, 10), ParseNat(minutesText, 10))
      case (Some(h), Some(m)) =>
        if m >= 60 then None
        else
          var magnitude: int := h * 60 + m;
          if s[0] == '-' then Some(-magnitude) else Some(magnitude)
      case _ => None
  }

  /** `detectTimezoneChange` over the sessions the repository returned for the
      last 7 days. */
  function DetectTimezoneChange(sessions: seq<Session>, currentOffsetMinutes: int, currentTimezoneId: string)
    : (r: Option<TimezoneAdjustment>)
    ensures LatestEnded(sessions).None? ==> r.None?
    ensures LatestEnded(sessions).Some? ==>
      var lastOffset := LatestEnded(sessions).value.timezoneOffset;
      && (r.None? <==> Abs(currentOffsetMinutes - lastOffset) <= TimezoneChangeThresholdMinutes)
      && (r.Some? ==>
            var adj := r.value;
            var diff := currentOffsetMinutes - lastOffset;
            && Abs(adj.hoursDifference) >= 1
            && (diff > 0 <==> adj.hoursDifference > 0)
            && Abs(adj.hoursDifference) * 60 <= Abs(diff) < (Abs(adj.hoursDifference) + 1) * 60
            && adj.estimatedDays == |adj.adjustmentSchedule| == 2 * Abs(adj.hoursDifference)
            && (forall i :: 0 <= i < |adj.adjustmentSchedule| ==>
                  adj.adjustmentSchedule[i] == (i + 1) * IncrementMinutes)
            && adj.oldTimezone == "UTC" + FormatOffset(lastOffset)
            && (IsBlank(currentTimezoneId) ==> adj.newTimezone == "UTC" + FormatOffset(currentOffsetMinutes))
            && |adj.oldTimezone| >= 3 && adj.oldTimezone[..3] == "UTC"
            && ParseOffset(adj.oldTimezone[3..]) == Some(lastOffset)
            && (!IsBlank(currentTimezoneId) ==> adj.newTimezone == currentTimezoneId)
            && (IsBlank(currentTimezoneId) ==>
                  |adj.newTimezone| >= 3 && adj.newTimezone[..3] == "UTC"
                  && ParseOffset(adj.newTimezone[3..]) == Some(currentOffsetMinutes)))
  {
    match LatestEnded(sessions)
    case None => None
    case Some(last) =>
      var lastOffset := last.timezoneOffset;
      if Abs(currentOffsetMinutes - lastOffset) <= TimezoneChangeThresholdMinutes then None
      else
        var hoursDifference := TruncDiv(currentOffsetMinutes - lastOffset, 60);
        var schedule := AdjustmentSchedule(Abs(hoursDifference));
        var oldLabel := "UTC" + FormatOffset(lastOffset);
        var newLabel := if IsBlank(currentTimezoneId) then "UTC" + FormatOffset(currentOffsetMinutes) else currentTimezoneId;
        assert oldLabel[3..] == FormatOffset(lastOffset);
        assert IsBlank(currentTimezoneId) ==> newLabel[3..] == FormatOffset(currentOffsetMinutes);
        Some(TimezoneAdjustment(oldLabel, newLabel, hoursDifference, schedule, |schedule|))
  }
}

=== FILE: domain.dfy ===
/** The domain records of the shared module: sleep sessions, wake-window
    recommendations, timezone adjustments, the errors the core raises, and the
    instant and duration arithmetic they are built on.

    An `Instant` is a whole number of milliseconds since the Unix epoch; a
    duration is a whole number of milliseconds or minutes, as each field says. */
module Domain {
  import opened Wrappers

  /** Whether a session has reached the backend. */
  datatype SyncStatus = Pending | Synced | Failed

  /** One sleep of one baby. `endTime` and `durationMinutes` stay `None`
      while the session is open. */
  datatype Session = Session(
    sessionId: string,
    babyId: string,
    startTime: int,
    endTime: Option<int>,
    durationMinutes: Option<int>,
    qualityScore: Option<real>,
    timezoneOffset: int,
    syncStatus: SyncStatus,
    initiatorDeviceId: string,
    modifiedAt: int,
    createdAt: int)
  {
    /** An active session: one without an end time. */
    predicate IsOpen() { endTime.None? }
  }

  /** A recommended wake window. `duration` and `baselineWindow` are in
      minutes, `nextSleepTime` in epoch milliseconds. */
  datatype WakeWindowRecommendation = WakeWindowRecommendation(
    duration: real,
    adjustmentReason: Option<string>,
    confidence: real,
    nextSleepTime: real,
    baselineWindow: int,
    adjustmentMultiplier: real)

  /** A detected timezone shift and its day-by-day catch-up plan; the
      schedule entries are durations in minutes. */
  datatype TimezoneAdjustment = TimezoneAdjustment(
    oldTimezone: string,
    newTimezone: string,
    hoursDifference: int,
    adjustmentSchedule: seq<int>,
    estimatedDays: int)

  /** What the core throws. `ActiveSessionExists` is Kotlin's
      `IllegalStateException`; every other case is an
      `IllegalArgumentException`. */
  datatype Error =
    | NegativeAge(ageInWeeks: int)
    | NegativeHoursDifference(hoursDifference: int)
    | ActiveSessionExists(babyId: string, existingSessionId: string)
    | SessionNotFound(sessionId: string)
    | SessionAlreadyCompleted(sessionId: string)
    | EndBeforeStart(startTime: int, endTime: int)
  {
    predicate IsIllegalState() { ActiveSessionExists? }
  }

  const MillisPerMinute := 60_000
  const MillisPerDay := 24 * 60 * 60 * 1000

  function Abs(x: int): (r: nat)
    ensures r == x || r == -x
  {
    if x < 0 then -x else x
  }

  /** Kotlin's integer division, which truncates toward zero (Dafny's `/`
      rounds toward negative infinity for a negative dividend). */
  function TruncDiv(a: int, b: int): (q: int)
    requires b > 0
    ensures Abs(q) * b <= Abs(a) < (Abs(q) + 1) * b
    ensures a >= 0 ==> q >= 0
    ensures a < 0 ==> q <= 0
  {
    if a >= 0 then
      FloorDivBounds(a, b);
      a / b
    else
      FloorDivBounds(-a, b);
      var magnitude: int := (-a) / b;
      -magnitude
  }

  lemma FloorDivBounds(x: nat, b: int)
    requires b > 0
    ensures 0 <= x / b
    ensures (x / b) * b <= x < (x / b + 1) * b
  {
    assert x == (x / b) * b + x % b;
  }

  /** `Duration.inWholeMinutes` of a duration given in milliseconds. */
  function WholeMinutes(ms: int): int
  {
    TruncDiv(ms, MillisPerMinute)
  }

  /** The session manager's `calculateDurationMinutes`: the whole minutes
      from `start` to `end`, truncated, and never negative. */
  function DurationMinutes(start: int, end: int): (m: int)
    ensures m >= 0
    ensures end <= start ==> m == 0
    ensures end >= start ==> m * MillisPerMinute <= end - start < (m + 1) * MillisPerMinute
  {
    var whole := WholeMinutes(end - start);
    if whole < 0 then 0 else whole
  }
}

=== FILE: idgen.dfy ===
/** `DefaultSessionIdGenerator`: ids of the form
    "session-<epoch ms>-<six lower-case hex digits>".

    The clock reading and the random draw from `0..0xFFFFFF` are parameters. */
module SessionIds {
  import opened Wrappers
  import opened Text

  const Prefix := "session-"
  const MaxRandom := 0xFFFFFF
  const RandomWidth := 6

  /** `generate()` for the clock reading `ms` and the random draw `random`. */
  function GenerateId(ms: int, random: int): (id: string)
    requires 0 <= random <= MaxRandom
    ensures |id| >= |Prefix| + 1 + 1 + RandomWidth
    ensures id[..|Prefix|] == Prefix
    ensures id[|id| - RandomWidth - 1] == '-'
    ensures IsDigits(id[|id| - RandomWidth..], 16)
    ensures ParseId(id) == Some((ms, random))
    ensures ClockText(id) == IntToDecimal(ms)
  {
    var msText := IntToDecimal(ms);
    var randomText := PadStart(NatToString(random, 16), RandomWidth, '0');
    HexSuffix(random);
    Layout(msText, randomText, ms, random);
    Prefix + msText + "-" + randomText
  }

  /** An id assembled from a decimal clock reading and six hex digits has
      the id shape and reads back as the two numbers. */
  lemma Layout(msText: string, randomText: string, ms: int, random: int)
    requires 1 <= |msText| && ParseInt(msText) == Some(ms)
    requires |randomText| == RandomWidth && IsDigits(randomText, 16)
    requires ParseNat(randomText, 16) == Some(random)
    ensures var id := Prefix + msText + "-" + randomText;
      && |id| >= |Prefix| + 1 + 1 + RandomWidth
      && id[..|Prefix|] == Prefix
      && id[|id| - RandomWidth - 1] == '-'
      && IsDigits(id[|id| - RandomWidth..], 16)
      && ParseId(id) == Some((ms, random))
      && ClockText(id) == msText
  {
    var id := Prefix + msText + "-" + randomText;
    assert id[..|Prefix|] == Prefix;
    assert id[|Prefix|..|id| - RandomWidth - 1] == msText;
    assert id[|id| - RandomWidth..] == randomText;
  }

  /** The random part is always six hex digits and reads back as the draw. */
  lemma HexSuffix(random: int)
    requires 0 <= random <= MaxRandom
    ensures var text := PadStart(NatToString(random, 16), RandomWidth, '0');
      |text| == RandomWidth && IsDigits(text, 16) && ParseNat(text, 16) == Some(random)
  {
    var digits := NatToString(random, 16);
    assert Pow(16, 6) == 0x1000000 by {
      assert Pow(16, 1) == 16 * Pow(16, 0);
      assert Pow(16, 2) == 16 * Pow(16, 1);
      assert Pow(16, 3) == 16 * Pow(16, 2);
      assert Pow(16, 4) == 16 * Pow(16, 3);
      assert Pow(16, 5) == 16 * Pow(16, 4);
    }
    NatToStringLength(random, 16, 6);
    NatToStringValue(random, 16);
    var text := PadStart(digits, RandomWidth, '0');
    var zeros := text[..|text| - |digits|];
    assert text == zeros + digits;
    LeadingZeros(zeros, digits, 16);
    assert IsDigits(text, 16) by {
      forall i | 0 <= i < |text|
        ensures 0 <= DigitValue(text[i]) < 16
      {
        if i >= |zeros| {
          assert text[i] == digits[i - |zeros|];
        }
      }
    }
  }

  /** The clock part of an id: what lies between "session-" and the last
      '-'. */
  function ClockText(id: string): string
    requires |id| >= |Prefix| + 1 + RandomWidth
  {
    id[|Prefix|..|id| - RandomWidth - 1]
  }

  /** Reads an id back into its clock reading and random draw. */
  function ParseId(id: string): Option<(int, int)>
  {
    if |id| < |Prefix| + 1 + 1 + RandomWidth || id[..|Prefix|] != Prefix
       || id[|id| - RandomWidth - 1] != '-' then None
    else
      match (ParseInt(ClockText(id)), ParseNat(id[|id| - RandomWidth..], 16))
      case (Some(ms), Some(random)) => Some((ms, random))
      case _ => None
  }

  /** Two different (clock reading, draw) pairs never give the same id. */
  lemma GenerateIdInjective(ms1: int, r1: int, ms2: int, r2: int)
    requires 0 <= r1 <= MaxRandom && 0 <= r2 <= MaxRandom
    requires ms1 != ms2 || r1 != r2
    ensures GenerateId(ms1, r1) != GenerateId(ms2, r2)
  {
  }
}

=== FILE: invariants.dfy ===
/** What the session manager keeps true of the repository across any
    sequence of calls: a baby never has two open sessions, and a session has
    a length exactly when it has an end. */
module SessionInvariants {
  import opened Wrappers
  import opened Domain
  import opened InMemoryRepository
  import opened SessionManager

  /** No baby has two open sessions. */
  predicate AtMostOneOpen(r: Repository)
  {
    forall a, b | a in r.byId && b in r.byId ::
      r.byId[a].IsOpen() && r.byId[b].IsOpen() && r.byId[a].babyId == r.byId[b].babyId ==> a == b
  }

  /** A session carries a length exactly when it has an end time. */
  predicate Consistent(r: Repository)
  {
    forall k | k in r.byId :: r.byId[k].endTime.None? <==> r.byId[k].durationMinutes.None?
  }

  predicate Invariant(r: Repository)
  {
    Valid(r) && AtMostOneOpen(r) && Consistent(r)
  }

  lemma EmptyInvariant()
    ensures Invariant(Empty)
  {
  }

  /** Under the invariant the active session of a baby is their only open
      one. */
  lemma ActiveIsUnique(r: Repository, babyId: string, k: string)
    requires Invariant(r)
    requires k in r.byId && ActiveFor(r.byId[k], babyId)
    ensures GetActiveSession(r, babyId) == Some(r.byId[k])
  {
    var found := GetActiveSession(r, babyId);
    assert found.Some?;
    assert found.value.sessionId in r.byId;
  }

  /** A change confined to one key keeps the invariant when that key's
      session is consistent and open only if it was open before, for the
      same baby. */
  lemma OneKeyChange(r: Repository, r': Repository, id: string)
    requires Invariant(r) && Valid(r')
    requires forall k | k != id :: GetSession(r', k) == GetSession(r, k)
    requires id in r'.byId ==> (r'.byId[id].endTime.None? <==> r'.byId[id].durationMinutes.None?)
    requires id in r'.byId && r'.byId[id].IsOpen() ==>
      id in r.byId && r.byId[id].IsOpen() && r.byId[id].babyId == r'.byId[id].babyId
    ensures Invariant(r')
  {
    Unchanged(r, r', id);
    forall a, b | a in r'.byId && b in r'.byId && r'.byId[a].IsOpen() && r'.byId[b].IsOpen()
                  && r'.byId[a].babyId == r'.byId[b].babyId
      ensures a == b
    {
      assert r.byId[a].IsOpen() && r.byId[b].IsOpen() && r.byId[a].babyId == r.byId[b].babyId;
    }
  }

  lemma StartPreserves(r: Repository, babyId: string, deviceId: string, offsetMinutes: int,
                       newId: string, now: int)
    requires Invariant(r)
    ensures Invariant(StartSleepSession(r, babyId, deviceId, offsetMinutes, newId, now).repo)
  {
    var t := StartSleepSession(r, babyId, deviceId, offsetMinutes, newId, now);
    if t.outcome.Success? {
      var r' := t.repo;
      var s := t.outcome.value;
      Unchanged(r, r', newId);
      assert r'.byId[newId] == s by {
        assert GetSession(r', newId) == Some(s);
      }
      forall a, b | a in r'.byId && b in r'.byId && r'.byId[a].IsOpen() && r'.byId[b].IsOpen()
                    && r'.byId[a].babyId == r'.byId[b].babyId
        ensures a == b
      {
        if a != newId && b != newId {
          assert r.byId[a].IsOpen() && r.byId[b].IsOpen() && r.byId[a].babyId == r.byId[b].babyId;
        }
      }
    }
  }

  lemma EndPreserves(r: Repository, id: string, now: int)
    requires Invariant(r)
    ensures Invariant(EndSleepSession(r, id, now).repo)
  {
    var t := EndSleepSession(r, id, now);
    if t.outcome.Success? {
      assert t.repo.byId[id] == t.outcome.value by {
        assert GetSession(t.repo, id) == Some(t.outcome.value);
      }
      OneKeyChange(r, t.repo, id);
    }
  }

  lemma UpdatePreserves(r: Repository, id: string, startTime: Option<int>, endTime: Option<int>, now: int)
    requires Invariant(r)
    ensures Invariant(UpdateSession(r, id, startTime, endTime, now).repo)
  {
    var t := UpdateSession(r, id, startTime, endTime, now);
    if t.outcome.Success? {
      var u := t.outcome.value;
      assert id in r.byId;
      assert t.repo.byId[id] == u by {
        assert GetSession(t.repo, id) == Some(u);
      }
      assert u.IsOpen() ==> r.byId[id].IsOpen() && u.babyId == r.byId[id].babyId;
      OneKeyChange(r, t.repo, id);
    }
  }

  /** Every key other than `id` holds what it held before. */
  lemma Unchanged(r: Repository, r': Repository, id: string)
    requires Valid(r) && Valid(r')
    requires forall k | k != id :: GetSession(r', k) == GetSession(r, k)
    ensures forall k | k in r'.byId && k != id :: k in r.byId && r'.byId[k] == r.byId[k]
    ensures forall k | k in r.byId && k != id :: k in r'.byId
  {
    forall k | k in r'.byId && k != id
      ensures k in r.byId && r'.byId[k] == r.byId[k]
    {
      assert GetSession(r', k) == GetSession(r, k);
    }
    forall k | k in r.byId && k != id
      ensures k in r'.byId
    {
      assert GetSession(r', k) == GetSession(r, k);
    }
  }

  lemma DeletePreserves(r: Repository, id: string)
    requires Invariant(r)
    ensures Invariant(DeleteSession(r, id))
  {
    var r' := DeleteSession(r, id);
    assert id !in r'.byId by {
      assert GetSession(r', id).None?;
    }
    OneKeyChange(r, r', id);
  }

  lemma MarkAsSyncedPreserves(r: Repository, id: string)
    requires Invariant(r)
    ensures Invariant(MarkAsSynced(r, id))
  {
    var r' := MarkAsSynced(r, id);
    if id in r.byId {
      assert r'.byId[id] == r.byId[id].(syncStatus := Synced) by {
        assert GetSession(r', id) == Some(r.byId[id].(syncStatus := Synced));
      }
    } else {
      assert r' == r;
    }
    OneKeyChange(r, r', id);
  }

  /** The calls that change the repository. */
  datatype Command =
    | Start(babyId: string, deviceId: string, offsetMinutes: int, newId: string, now: int)
    | End(sessionId: string, now: int)
    | Edit(sessionId: string, startTime: Option<int>, endTime: Option<int>, now: int)
    | Delete(sessionId: string)
    | MarkSynced(sessionId: string)

  function Apply(r: Repository, c: Command): (r': Repository)
    requires Valid(r)
    ensures Valid(r')
  {
    match c
    case Start(babyId, deviceId, offset, newId, now) =>
      StartSleepSession(r, babyId, deviceId, offset, newId, now).repo
    case End(id, now) => EndSleepSession(r, id, now).repo
    case Edit(id, start, end, now) => UpdateSession(r, id, start, end, now).repo
    case Delete(id) => DeleteSession(r, id)
    case MarkSynced(id) => MarkAsSynced(r, id)
  }

  function Run(r: Repository, cs: seq<Command>): (r': Repository)
    requires Valid(r)
    ensures Valid(r')
    decreases |cs|
  {
    if |cs| == 0 then r else Run(Apply(r, cs[0]), cs[1..])
  }

  /** Every call keeps the invariant. */
  lemma ApplyPreserves(r: Repository, c: Command)
    requires Invariant(r)
    ensures Invariant(Apply(r, c))
  {
    match c
    case Start(babyId, deviceId, offset, newId, now) =>
      StartPreserves(r, babyId, deviceId, offset, newId, now);
    case End(id, now) => EndPreserves(r, id, now);
    case Edit(id, start, end, now) => UpdatePreserves(r, id, start, end, now);
    case Delete(id) => DeletePreserves(r, id);
    case MarkSynced(id) => MarkAsSyncedPreserves(r, id);
  }

  /** Any sequence of calls keeps the invariant. */
  lemma {:induction false} RunPreserves(r: Repository, cs: seq<Command>)
    requires Invariant(r)
    ensures Invariant(Run(r, cs))
    decreases |cs|
  {
    if |cs| > 0 {
      ApplyPreserves(r, cs[0]);
      RunPreserves(Apply(r, cs[0]), cs[1..]);
    }
  }

  /** Every repository reachable from an empty one by the manager's calls
      keeps at most one open session per baby. */
  lemma ReachableInvariant(cs: seq<Command>)
    ensures Valid(Empty) && Invariant(Run(Empty, cs))
  {
    EmptyValid();
    EmptyInvariant();
    RunPreserves(Empty, cs);
  }

  /** A session just started is the baby's active session. */
  lemma StartedIsActive(r: Repository, babyId: string, deviceId: string, offsetMinutes: int,
                        newId: string, now: int)
    requires Valid(r)
    requires StartSleepSession(r, babyId, deviceId, offsetMinutes, newId, now).outcome.Success?
    ensures var t := StartSleepSession(r, babyId, deviceId, offsetMinutes, newId, now);
      GetActiveSession(t.repo, babyId) == Some(t.outcome.value)
  {
    var t := StartSleepSession(r, babyId, deviceId, offsetMinutes, newId, now);
    var found := GetActiveSession(t.repo, babyId);
    assert GetSession(t.repo, newId) == Some(t.outcome.value);
    assert found.Some?;
  }

  /** Ending the active session frees the baby for a new one. */
  lemma EndThenStart(r: Repository, babyId: string, now: int,
                     deviceId: string, offsetMinutes: int, newId: string, later: int)
    requires Invariant(r)
    requires GetActiveSession(r, babyId).Some?
    ensures var ended := EndSleepSession(r, GetActiveSession(r, babyId).value.sessionId, now);
      && ended.outcome.Success?
      && StartSleepSession(ended.repo, babyId, deviceId, offsetMinutes, newId, later).outcome.Success?
  {
    var active := GetActiveSession(r, babyId).value;
    var id := active.sessionId;
    var ended := EndSleepSession(r, id, now);
    assert ended.outcome.Success?;
    var r' := ended.repo;
    forall k | k in r'.byId
      ensures !ActiveFor(r'.byId[k], babyId)
    {
      if k == id {
        assert GetSession(r', id) == Some(ended.outcome.value);
      } else {
        assert GetSession(r', k) == GetSession(r, k);
      }
    }
  }
}

=== FILE: manager.dfy ===
/** `SleepSessionManager`: starting, ending and editing sleep sessions on top
    of the repository.

    Each operation takes the repository contents and returns the new contents
    together with either the session it produced or the error it would have
    thrown; on an error the repository is left as it was. The clock reading
    `now` and, for a new session, the generated id are parameters. */
module SessionManager {
  import opened Wrappers
  import opened Domain
  import opened Text
  import opened InMemoryRepository

  datatype Transition = Transition(repo: Repository, outcome: Result<Session, Error>)

  /** The message of the `IllegalStateException` a second start throws. */
  function ActiveSessionMessage(babyId: string, existingSessionId: string): (msg: string)
    ensures Contains(msg, babyId) && Contains(msg, existingSessionId)
  {
    var head := "Baby " + babyId + " already has an active session (";
    var msg := head + existingSessionId + "). End it before starting a new one.";
    assert OccursAt(msg, babyId, 5);
    assert OccursAt(msg, existingSessionId, |head|);
    msg
  }

  /** The session `startSleepSession` creates. */
  function NewSession(id: string, babyId: string, deviceId: string, offsetMinutes: int, now: int): Session
  {
    Session(id, babyId, now, None, None, None, offsetMinutes, Pending, deviceId, now, now)
  }

  /** `startSleepSession`: refuses while the baby has an open session;
      otherwise stores a new open, pending session that starts now. */
  function StartSleepSession(r: Repository, babyId: string, deviceId: string, offsetMinutes: int,
                             newId: string, now: int): (t: Transition)
    requires Valid(r)
    ensures Valid(t.repo)
    ensures t.outcome.Failure? <==> exists k | k in r.byId :: ActiveFor(r.byId[k], babyId)
    ensures t.outcome.Failure? ==>
      && t.repo == r
      && t.outcome.error.ActiveSessionExists? && t.outcome.error.IsIllegalState()
      && t.outcome.error.babyId == babyId
      && GetSession(r, t.outcome.error.existingSessionId).Some?
      && ActiveFor(r.byId[t.outcome.error.existingSessionId], babyId)
      && GetActiveSession(r, babyId) == Some(r.byId[t.outcome.error.existingSessionId])
      && Contains(ActiveSessionMessage(babyId, t.outcome.error.existingSessionId),
                  GetActiveSession(r, babyId).value.sessionId)
    ensures t.outcome.Success? ==>
      var s := t.outcome.value;
      && s.sessionId == newId && s.babyId == babyId && s.initiatorDeviceId == deviceId
      && s.startTime == now && s.createdAt == now && s.modifiedAt == now
      && s.IsOpen() && s.durationMinutes.None? && s.qualityScore.None?
      && s.timezoneOffset == offsetMinutes && s.syncStatus == Pending
      && GetSession(t.repo, newId) == Some(s)
      && (forall k | k != newId :: GetSession(t.repo, k) == GetSession(r, k))
  {
    match GetActiveSession(r, babyId)
    case Some(existing) =>
      Transition(r, Failure(ActiveSessionExists(babyId, existing.sessionId)))
    case None =>
      var s := NewSession(newId, babyId, deviceId, offsetMinutes, now);
      Transition(Put(r, s), Success(s))
  }

  /** `endSleepSession`: closes an open session at `now`, with its length in
      whole minutes; an unknown or already closed session is refused. */
  function EndSleepSession(r: Repository, id: string, now: int): (t: Transition)
    requires Valid(r)
    ensures Valid(t.repo)
    ensures id !in r.byId <==> t.outcome == Failure(SessionNotFound(id))
    ensures id in r.byId && !r.byId[id].IsOpen() <==> t.outcome == Failure(SessionAlreadyCompleted(id))
    ensures t.outcome.Failure? ==> t.repo == r
    ensures t.outcome.Success? ==>
      var e := r.byId[id];
      var u := t.outcome.value;
      && id in r.byId && e.IsOpen()
      && u.endTime == Some(now) && u.modifiedAt == now
      && u.durationMinutes.Some? && u.durationMinutes.value >= 0
      && (now >= e.startTime ==>
            u.durationMinutes.value * MillisPerMinute <= now - e.startTime
              < (u.durationMinutes.value + 1) * MillisPerMinute)
      && (now <= e.startTime ==> u.durationMinutes.value == 0)
      && u.(endTime := e.endTime, durationMinutes := e.durationMinutes, modifiedAt := e.modifiedAt) == e
      && GetSession(t.repo, id) == Some(u)
      && (forall k | k != id :: GetSession(t.repo, k) == GetSession(r, k))
  {
    match GetSession(r, id)
    case None => Transition(r, Failure(SessionNotFound(id)))
    case Some(existing) =>
      if !existing.IsOpen() then Transition(r, Failure(SessionAlreadyCompleted(id)))
      else
        var updated := existing.(
          endTime := Some(now),
          durationMinutes := Some(DurationMinutes(existing.startTime, now)),
          modifiedAt := now);
        Transition(Put(r, updated), Success(updated))
  }

  /** The end time an edit leaves: the new one if given, else the old one. */
  function EffectiveEnd(requested: Option<int>, existing: Option<int>): (e: Option<int>)
    ensures requested.Some? ==> e == requested
    ensures requested.None? ==> e == existing
  {
    if requested.Some? then requested else existing
  }

  /** `updateSession`: replaces the start and/or end of a session, keeps what
      is not given, recomputes the length, and refuses an end before the
      start. */
  function UpdateSession(r: Repository, id: string, startTime: Option<int>, endTime: Option<int>,
                         now: int): (t: Transition)
    requires Valid(r)
    ensures Valid(t.repo)
    ensures id !in r.byId <==> t.outcome == Failure(SessionNotFound(id))
    ensures t.outcome.Failure? ==> t.repo == r
    ensures id in r.byId ==>
      var e := r.byId[id];
      var start := startTime.GetOr(e.startTime);
      var end := EffectiveEnd(endTime, e.endTime);
      && (t.outcome.Failure? <==> end.Some? && end.value < start)
      && (t.outcome.Failure? ==> t.outcome.error == EndBeforeStart(start, end.value))
      && (t.outcome.Success? ==>
            var u := t.outcome.value;
            && u.startTime == start && u.endTime == end && u.modifiedAt == now
            && (u.durationMinutes.Some? <==> end.Some?)
            && (end.Some? ==>
                  u.durationMinutes.value * MillisPerMinute <= end.value - start
                    < (u.durationMinutes.value + 1) * MillisPerMinute)
            && u.(startTime := e.startTime, endTime := e.endTime,
                  durationMinutes := e.durationMinutes, modifiedAt := e.modifiedAt) == e
            && GetSession(t.repo, id) == Some(u)
            && (forall k | k != id :: GetSession(t.repo, k) == GetSession(r, k)))
  {
    match GetSession(r, id)
    case None => Transition(r, Failure(SessionNotFound(id)))
    case Some(existing) =>
      var start := startTime.GetOr(existing.startTime);
      var end := EffectiveEnd(endTime, existing.endTime);
      if end.Some? && end.value < start then
        Transition(r, Failure(EndBeforeStart(start, end.value)))
      else
        var duration := if end.Some? then Some(DurationMinutes(start, end.value)) else None;
        var updated := existing.(
          startTime := start, endTime := end, durationMinutes := duration, modifiedAt := now);
        Transition(Put(r, updated), Success(updated))
  }

  /** An edit never reopens a closed session: leaving out the end keeps the
      old one. */
  lemma EditKeepsClosed(r: Repository, id: string, startTime: Option<int>, endTime: Option<int>, now: int)
    requires Valid(r)
    requires id in r.byId && !r.byId[id].IsOpen()
    requires UpdateSession(r, id, startTime, endTime, now).outcome.Success?
    ensures !UpdateSession(r, id, startTime, endTime, now).outcome.value.IsOpen()
  {
  }
}

=== FILE: repository.dfy ===
/** `InMemorySleepRepository`: the sessions of every baby, kept in a
    `LinkedHashMap` from session id to session.

    The map is modelled as its key order plus a Dafny map. `order` is the
    order in which the keys were first inserted, which is the order
    `sessions.values` walks; it is what makes `find`, `filter` and the stable
    `sortedByDescending` below deterministic. The mutex and the injected
    clock are left out: every operation is a pure function of the current
    contents (and of `now` where the source reads the clock). */
module InMemoryRepository {
  import opened Wrappers
  import opened Seqs
  import opened Domain

  datatype Repository = Repository(order: seq<string>, byId: map<string, Session>)

  /** No key is listed twice. */
  predicate Distinct(ks: seq<string>)
  {
    forall i, j :: 0 <= i < j < |ks| ==> ks[i] != ks[j]
  }

  /** The shape a `LinkedHashMap` keyed by session id always has: the key
      order lists every key exactly once, and each session is stored under
      its own id. */
  predicate Valid(r: Repository)
  {
    && Distinct(r.order)
    && (forall k | k in r.order :: k in r.byId)
    && (forall k | k in r.byId :: k in r.order)
    && (forall k | k in r.byId :: r.byId[k].sessionId == k)
  }

  const Empty := Repository([], map[])

  lemma EmptyValid()
    ensures Valid(Empty)
    ensures Values(Empty) == []
  {
  }

  /** `sessions.values`, in key order. */
  function Values(r: Repository): (vs: seq<Session>)
    requires Valid(r)
    ensures |vs| == |r.order|
    ensures forall i :: 0 <= i < |vs| ==> vs[i] == r.byId[r.order[i]]
  {
    seq(|r.order|, i requires 0 <= i < |r.order| && r.order[i] in r.byId => r.byId[r.order[i]])
  }

  /** A session is among the values exactly when it is the one stored under
      its own id. */
  lemma InValues(r: Repository, s: Session)
    requires Valid(r)
    ensures s in Values(r) <==> s.sessionId in r.byId && r.byId[s.sessionId] == s
  {
    var vs := Values(r);
    if s.sessionId in r.byId && r.byId[s.sessionId] == s {
      var i :| 0 <= i < |r.order| && r.order[i] == s.sessionId;
      assert vs[i] == s;
    }
  }

  /** `getSession`: the session stored under `id`, or `null`. */
  function GetSession(r: Repository, id: string): (found: Option<Session>)
    ensures found.Some? <==> id in r.byId
    ensures Valid(r) && found.Some? ==> found.value.sessionId == id && found.value in Values(r)
  {
    if id in r.byId then
      assert Valid(r) ==> r.byId[id] in Values(r) by {
        if Valid(r) {
          InValues(r, r.byId[id]);
        }
      }
      Some(r.byId[id])
    else None
  }

  /** `sessions[key] = s`: an existing key keeps its place in the order, a
      new key goes last. */
  function Store(r: Repository, key: string, s: Session): (r': Repository)
    requires Valid(r)
    requires s.sessionId == key
    ensures Valid(r')
    ensures forall k :: GetSession(r', k) == if k == key then Some(s) else GetSession(r, k)
    ensures key in r.byId ==> r'.order == r.order
    ensures key !in r.byId ==> r'.order == r.order + [key]
  {
    var order := if key in r.byId then r.order else r.order + [key];
    var r' := Repository(order, r.byId[key := s]);
    assert Distinct(order);
    r'
  }

  /** `insertSession` and `updateSession`, which do the same thing: store the
      session under its own id, replacing whatever was there. */
  function Put(r: Repository, s: Session): (r': Repository)
    requires Valid(r)
    ensures Valid(r')
    ensures GetSession(r', s.sessionId) == Some(s)
    ensures forall k | k != s.sessionId :: GetSession(r', k) == GetSession(r, k)
    ensures |Values(r')| == |Values(r)| + (if s.sessionId in r.byId then 0 else 1)
    ensures s.sessionId in r.byId ==> r'.order == r.order
    ensures s.sessionId !in r.byId ==> r'.order == r.order + [s.sessionId]
  {
    Store(r, s.sessionId, s)
  }

  /** The key order without `id`. */
  function Remove(ks: seq<string>, id: string): (rs: seq<string>)
    requires Distinct(ks)
    ensures Distinct(rs)
    ensures forall k :: k in rs <==> k in ks && k != id
    ensures |rs| <= |ks|
    ensures rs == Filter(ks, k => k != id)
  {
    if |ks| == 0 then []
    else
      var rest := Remove(ks[1..], id);
      assert ks[0] !in ks[1..];
      var rs := (if ks[0] == id then [] else [ks[0]]) + rest;
      assert Distinct(rs) by {
        forall i, j | 0 <= i < j < |rs|
          ensures rs[i] != rs[j]
        {
          if ks[0] != id && i == 0 {
            assert rs[j] in rest;
          }
        }
      }
      rs
  }

  /** `deleteSession`: `sessions.remove(id)`; nothing else changes. */
  function DeleteSession(r: Repository, id: string): (r': Repository)
    requires Valid(r)
    ensures Valid(r')
    ensures GetSession(r', id).None?
    ensures forall k | k != id :: GetSession(r', k) == GetSession(r, k)
    ensures r'.order == Filter(r.order, k => k != id)
  {
    Repository(Remove(r.order, id), r.byId - {id})
  }

  /** The session a baby has open: one of theirs without an end time. */
  predicate ActiveFor(s: Session, babyId: string)
  {
    s.babyId == babyId && s.IsOpen()
  }

  /** `getActiveSession`: the first open session of the baby in key order,
      or `null` when the baby has none open. */
  function GetActiveSession(r: Repository, babyId: string): (found: Option<Session>)
    requires Valid(r)
    ensures found.None? <==> forall k | k in r.byId :: !ActiveFor(r.byId[k], babyId)
    ensures found.Some? ==> ActiveFor(found.value, babyId)
    ensures found.Some? ==> GetSession(r, found.value.sessionId) == found
    ensures found.Some? ==>
      exists i :: 0 <= i < |r.order| && r.order[i] == found.value.sessionId
        && forall j :: 0 <= j < i ==> !ActiveFor(r.byId[r.order[j]], babyId)
  {
    var vs := Values(r);
    var found := Find(vs, s => ActiveFor(s, babyId));
    assert found.None? ==> forall k | k in r.byId :: !ActiveFor(r.byId[k], babyId) by {
      if found.None? {
        forall k | k in r.byId
          ensures !ActiveFor(r.byId[k], babyId)
        {
          InValues(r, r.byId[k]);
        }
      }
    }
    assert found.Some? ==> GetSession(r, found.value.sessionId) == found by {
      if found.Some? {
        InValues(r, found.value);
      }
    }
    found
  }

  /** The sort key of `getSessions`. */
  function StartKey(s: Session): int
  {
    s.startTime
  }

  /** A session of `babyId` that started at or after `cutoff`. */
  predicate StartedSince(s: Session, babyId: string, cutoff: int)
  {
    s.babyId == babyId && s.startTime >= cutoff
  }

  /** The sessions `getSessions` keeps, still in key order. */
  function Recent(r: Repository, babyId: string, cutoff: int): (rs: seq<Session>)
    requires Valid(r)
    ensures forall s :: s in rs <==> s in Values(r) && StartedSince(s, babyId, cutoff)
  {
    Filter(Values(r), s => StartedSince(s, babyId, cutoff))
  }

  /** The instant `days` days before `now`. */
  function Cutoff(now: int, days: int): int
  {
    now - days * MillisPerDay
  }

  /** `getSessions`: the baby's sessions that started within the last `days`
      days, latest start first; nothing at all for a non-positive `days`. */
  function GetSessions(r: Repository, babyId: string, days: int, now: int): (rs: seq<Session>)
    requires Valid(r)
    ensures days <= 0 ==> rs == []
    ensures forall s :: s in rs <==>
      days > 0 && GetSession(r, s.sessionId) == Some(s) && StartedSince(s, babyId, Cutoff(now, days))
    ensures days > 0 ==> multiset(rs) == multiset(Recent(r, babyId, Cutoff(now, days)))
    ensures SortedDesc(rs, StartKey)
  {
    if days <= 0 then []
    else
      var recent := Recent(r, babyId, Cutoff(now, days));
      var rs := SortDesc(recent, StartKey);
      assert forall s :: s in rs <==> s in recent by {
        forall s
          ensures s in rs <==> s in recent
        {
          assert s in rs <==> s in multiset(rs);
          assert s in recent <==> s in multiset(recent);
        }
      }
      assert forall s :: s in rs <==> GetSession(r, s.sessionId) == Some(s) && StartedSince(s, babyId, Cutoff(now, days)) by {
        forall s
          ensures s in rs <==> GetSession(r, s.sessionId) == Some(s) && StartedSince(s, babyId, Cutoff(now, days))
        {
          InValues(r, s);
        }
      }
      rs
  }

  /** Sessions that started at the same instant come out of `getSessions` in
      key order: the sort is stable. */
  lemma GetSessionsStable(r: Repository, babyId: string, days: int, now: int, start: int)
    requires Valid(r)
    requires days > 0
    ensures WithKey(GetSessions(r, babyId, days, now), StartKey, start)
         == WithKey(Recent(r, babyId, Cutoff(now, days)), StartKey, start)
  {
    SortDescStable(Recent(r, babyId, Cutoff(now, days)), StartKey, start);
  }

  predicate IsPending(s: Session)
  {
    s.syncStatus == Pending
  }

  /** `getPendingSyncSessions`: the stored sessions still waiting for sync,
      in key order. */
  function GetPendingSyncSessions(r: Repository): (ps: seq<Session>)
    requires Valid(r)
    ensures forall s :: s in ps <==> GetSession(r, s.sessionId) == Some(s) && IsPending(s)
    ensures |ps| <= |r.order|
    ensures forall i, j :: 0 <= i < j < |ps| ==> OccursBefore(r.order, ps[i].sessionId, ps[j].sessionId)
    ensures forall i, j :: 0 <= i < j < |ps| ==> ps[i].sessionId != ps[j].sessionId
  {
    PendingMembers(r);
    PendingInKeyOrder(r);
    Filter(Values(r), IsPending)
  }

  /** The pending sessions are exactly the stored sessions still pending. */
  lemma PendingMembers(r: Repository)
    requires Valid(r)
    ensures var ps := Filter(Values(r), IsPending);
      forall s :: s in ps <==> GetSession(r, s.sessionId) == Some(s) && IsPending(s)
  {
    var ps := Filter(Values(r), IsPending);
    forall s
      ensures s in ps <==> GetSession(r, s.sessionId) == Some(s) && IsPending(s)
    {
      InValues(r, s);
    }
  }

  /** The pending sessions come out in key order, each once. */
  lemma PendingInKeyOrder(r: Repository)
    requires Valid(r)
    ensures var ps := Filter(Values(r), IsPending);
      && (forall i, j :: 0 <= i < j < |ps| ==> OccursBefore(r.order, ps[i].sessionId, ps[j].sessionId))
      && (forall i, j :: 0 <= i < j < |ps| ==> ps[i].sessionId != ps[j].sessionId)
  {
    var vs := Values(r);
    var ps := Filter(vs, IsPending);
    FilterOrderedIn(vs, IsPending);
    forall i, j | 0 <= i < j < |ps|
      ensures OccursBefore(r.order, ps[i].sessionId, ps[j].sessionId)
      ensures ps[i].sessionId != ps[j].sessionId
    {
      ValuesBefore(r, ps[i], ps[j]);
    }
  }

  /** Two values in order belong to two different keys in the same order. */
  lemma ValuesBefore(r: Repository, x: Session, y: Session)
    requires Valid(r) && OccursBefore(Values(r), x, y)
    ensures OccursBefore(r.order, x.sessionId, y.sessionId)
    ensures x.sessionId != y.sessionId
  {
    var vs := Values(r);
    var a, b :| 0 <= a < b < |vs| && vs[a] == x && vs[b] == y;
    assert r.order[a] == x.sessionId && r.order[b] == y.sessionId;
  }

  /** `markAsSynced`: flags the stored session as synced; an unknown id is
      ignored. The key order never changes. */
  function MarkAsSynced(r: Repository, id: string): (r': Repository)
    requires Valid(r)
    ensures Valid(r')
    ensures r'.order == r.order
    ensures id in r.byId ==> GetSession(r', id) == Some(r.byId[id].(syncStatus := Synced))
    ensures id !in r.byId ==> r' == r
    ensures forall k | k != id :: GetSession(r', k) == GetSession(r, k)
  {
    match GetSession(r, id)
    case None => r
    case Some(s) => Store(r, id, s.(syncStatus := Synced))
  }

  /** Marking twice is marking once. */
  lemma MarkAsSyncedIdempotent(r: Repository, id: string)
    requires Valid(r)
    ensures MarkAsSynced(MarkAsSynced(r, id), id) == MarkAsSynced(r, id)
  {
    var once := MarkAsSynced(r, id);
    if id in r.byId {
      assert once.byId == r.byId[id := r.byId[id].(syncStatus := Synced)];
      assert MarkAsSynced(once, id).byId == once.byId;
    }
  }

  /** A session marked as synced is no longer pending. */
  lemma MarkedIsNotPending(r: Repository, id: string)
    requires Valid(r)
    ensures forall s | s in GetPendingSyncSessions(MarkAsSynced(r, id)) :: s.sessionId != id
  {
  }

  /** The last session in `xs` with the given id, if any. */
  function LastWithId(xs: seq<Session>, id: string): (found: Option<Session>)
    ensures found.None? <==> forall i :: 0 <= i < |xs| ==> xs[i].sessionId != id
    ensures found.Some? ==> found.value in xs && found.value.sessionId == id
  {
    if |xs| == 0 then None
    else if xs[|xs| - 1].sessionId == id then Some(xs[|xs| - 1])
    else LastWithId(xs[..|xs| - 1], id)
  }

  /** The position of the first session in `xs` with the given id, or `|xs|`
      when there is none. */
  function IdIndex(xs: seq<Session>, id: string): (i: nat)
    ensures i <= |xs|
    ensures forall j :: 0 <= j < i ==> xs[j].sessionId != id
    ensures i < |xs| ==> xs[i].sessionId == id
  {
    if |xs| == 0 then 0
    else if xs[0].sessionId == id then 0
    else 1 + IdIndex(xs[1..], id)
  }

  /** An id that occurs in a prefix first occurs in the whole list at the
      same place. */
  lemma IdIndexPrefix(xs: seq<Session>, n: nat, id: string)
    requires n <= |xs| && IdIndex(xs[..n], id) < n
    ensures IdIndex(xs, id) == IdIndex(xs[..n], id)
  {
    var i := IdIndex(xs[..n], id);
    assert xs[i] == xs[..n][i];
    forall j | 0 <= j < i
      ensures xs[j].sessionId != id
    {
      assert xs[j] == xs[..n][j];
    }
  }

  /** The key order of a repository lists ids in the order in which they
      first occur in `xs`. */
  ghost predicate FirstOccurrenceOrder(r: Repository, xs: seq<Session>)
  {
    && (forall a :: 0 <= a < |r.order| ==> IdIndex(xs, r.order[a]) < |xs|)
    && (forall a, b :: 0 <= a < b < |r.order| ==> IdIndex(xs, r.order[a]) < IdIndex(xs, r.order[b]))
  }

  /** The constructor's `initialSessions.associateBy { it.sessionId }`: every
      id keeps the last session listed under it, and the keys are ordered
      by their first occurrence in the list. */
  function FromList(xs: seq<Session>): (r: Repository)
    ensures Valid(r)
    ensures forall id :: GetSession(r, id) == LastWithId(xs, id)
    ensures forall a :: 0 <= a < |r.order| ==> IdIndex(xs, r.order[a]) < |xs|
    ensures forall a, b :: 0 <= a < b < |r.order| ==> IdIndex(xs, r.order[a]) < IdIndex(xs, r.order[b])
    decreases |xs|
  {
    if |xs| == 0 then Empty
    else
      var prev := FromList(xs[..|xs| - 1]);
      assert FirstOccurrenceOrder(prev, xs[..|xs| - 1]);
      FromListStep(prev, xs);
      Put(prev, xs[|xs| - 1])
  }

  /** Storing the last session of `xs` keeps the key order by first
      occurrence. */
  lemma FromListStep(prev: Repository, xs: seq<Session>)
    requires |xs| > 0 && Valid(prev)
    requires forall id :: GetSession(prev, id) == LastWithId(xs[..|xs| - 1], id)
    requires FirstOccurrenceOrder(prev, xs[..|xs| - 1])
    ensures FirstOccurrenceOrder(Put(prev, xs[|xs| - 1]), xs)
  {
    var x := xs[|xs| - 1];
    OldKeysKeepPlace(prev, xs);
    if x.sessionId !in prev.byId {
      assert GetSession(prev, x.sessionId).None?;
      NewKeyComesLast(xs, xs[..|xs| - 1]);
      assert Put(prev, x).order == prev.order + [x.sessionId];
    }
  }

  /** The keys already stored first occur in `xs` where they first occur in
      its prefix. */
  lemma OldKeysKeepPlace(prev: Repository, xs: seq<Session>)
    requires |xs| > 0
    requires FirstOccurrenceOrder(prev, xs[..|xs| - 1])
    ensures forall a :: 0 <= a < |prev.order| ==> IdIndex(xs, prev.order[a]) == IdIndex(xs[..|xs| - 1], prev.order[a]) < |xs| - 1
  {
    forall a | 0 <= a < |prev.order|
      ensures IdIndex(xs, prev.order[a]) == IdIndex(xs[..|xs| - 1], prev.order[a]) < |xs| - 1
    {
      IdIndexPrefix(xs, |xs| - 1, prev.order[a]);
    }
  }

  /** An id that does not occur before the last entry first occurs there. */
  lemma NewKeyComesLast(xs: seq<Session>, prefix: seq<Session>)
    requires |xs| > 0 && prefix == xs[..|xs| - 1]
    requires forall i :: 0 <= i < |prefix| ==> prefix[i].sessionId != xs[|xs| - 1].sessionId
    ensures IdIndex(xs, xs[|xs| - 1].sessionId) == |xs| - 1
  {
    forall j | 0 <= j < |xs| - 1
      ensures xs[j].sessionId != xs[|xs| - 1].sessionId
    {
      assert prefix[j] == xs[j];
    }
  }
}

=== FILE: seqs.dfy ===
/** The Kotlin collection operations the core relies on, over sequences:
    `filter`, `find`, `take`, `sum` and the stable `sortedByDescending`. */
module Seqs {
  import opened Wrappers

  /** `filter`: the elements satisfying `p`, in their original order. */
  function Filter<T>(s: seq<T>, p: T -> bool): (r: seq<T>)
    ensures |r| <= |s|
    ensures forall x | x in r :: x in s && p(x)
    ensures forall x | x in s && p(x) :: x in r
    ensures forall i :: 0 <= i < |r| ==> p(r[i])
  {
    if |s| == 0 then []
    else
      assert s == [s[0]] + s[1..];
      (if p(s[0]) then [s[0]] else []) + Filter(s[1..], p)
  }

  /** `filter` keeps every element satisfying `p` as often as it occurs, and
      no other. */
  lemma {:induction false} FilterMultiset<T>(s: seq<T>, p: T -> bool)
    ensures forall x :: multiset(Filter(s, p))[x] == if p(x) then multiset(s)[x] else 0
  {
    if |s| > 0 {
      FilterMultiset(s[1..], p);
      assert s == [s[0]] + s[1..];
    }
  }

  /** `filter` keeps the relative order: filtering a concatenation
      concatenates the filtered parts. */
  lemma {:induction false} FilterAppend<T>(a: seq<T>, b: seq<T>, p: T -> bool)
    ensures Filter(a + b, p) == Filter(a, p) + Filter(b, p)
  {
    if |a| == 0 {
      assert a + b == b;
    } else {
      var head := if p(a[0]) then [a[0]] else [];
      FilterHead(a + b, p);
      assert (a + b)[0] == a[0] && (a + b)[1..] == a[1..] + b;
      FilterHead(a, p);
      FilterAppend(a[1..], b, p);
      AppendAssoc(head, Filter(a[1..], p), Filter(b, p),
                  Filter(a + b, p), Filter(a, p), Filter(a[1..] + b, p));
    }
  }

  /** One step of `filter`: the first element, if kept, then the rest. */
  lemma FilterHead<T>(s: seq<T>, p: T -> bool)
    requires |s| > 0
    ensures Filter(s, p) == (if p(s[0]) then [s[0]] else []) + Filter(s[1..], p)
  {
  }

  lemma AppendAssoc<T>(h: seq<T>, x: seq<T>, y: seq<T>, whole: seq<T>, left: seq<T>, tail: seq<T>)
    requires whole == h + tail && tail == x + y && left == h + x
    ensures whole == left + y
  {
  }

  /** `x` occurs in `s` before an occurrence of `y`. */
  ghost predicate OccursBefore<T>(s: seq<T>, x: T, y: T)
  {
    exists a, b :: 0 <= a < b < |s| && s[a] == x && s[b] == y
  }

  /** Every two entries of `r` occur in `s` in the same order. */
  ghost predicate OrderedIn<T>(r: seq<T>, s: seq<T>)
  {
    forall i, j :: 0 <= i < j < |r| ==> OccursBefore(s, r[i], r[j])
  }

  /** `filter` keeps the elements it keeps in their order in the list. */
  lemma {:induction false} FilterOrderedIn<T>(s: seq<T>, p: T -> bool)
    ensures OrderedIn(Filter(s, p), s)
  {
    if |s| > 0 {
      FilterHead(s, p);
      FilterOrderedIn(s[1..], p);
      if p(s[0]) {
        OrderedInCons(s, Filter(s[1..], p));
      } else {
        OrderedInTail(s, Filter(s[1..], p));
      }
    }
  }

  /** Dropping the list's head keeps an order found in its tail. */
  lemma OrderedInTail<T>(s: seq<T>, r: seq<T>)
    requires |s| > 0 && OrderedIn(r, s[1..])
    ensures OrderedIn(r, s)
  {
    var tail := s[1..];
    forall i, j | 0 <= i < j < |r|
      ensures OccursBefore(s, r[i], r[j])
    {
      assert OccursBefore(tail, r[i], r[j]);
      var a, b :| 0 <= a < b < |tail| && tail[a] == r[i] && tail[b] == r[j];
      assert s[a + 1] == r[i] && s[b + 1] == r[j];
    }
  }

  /** The list's head followed by entries ordered in its tail is ordered in
      the list. */
  lemma OrderedInCons<T>(s: seq<T>, r: seq<T>)
    requires |s| > 0 && OrderedIn(r, s[1..])
    requires forall x | x in r :: x in s[1..]
    ensures OrderedIn([s[0]] + r, s)
  {
    var f := [s[0]] + r;
    var tail := s[1..];
    forall i, j | 0 <= i < j < |f|
      ensures OccursBefore(s, f[i], f[j])
    {
      if i == 0 {
        assert f[j] == r[j - 1] && r[j - 1] in tail;
        var b :| 0 <= b < |tail| && tail[b] == f[j];
        assert s[0] == f[i] && s[b + 1] == f[j];
      } else {
        assert f[i] == r[i - 1] && f[j] == r[j - 1];
        assert OccursBefore(tail, r[i - 1], r[j - 1]);
        var a, b :| 0 <= a < b < |tail| && tail[a] == r[i - 1] && tail[b] == r[j - 1];
        assert s[a + 1] == f[i] && s[b + 1] == f[j];
      }
    }
  }

  /** `s[i]` satisfies `p`, and every earlier element that does has a
      smaller key. */
  ghost predicate FirstOfItsKey<T>(s: seq<T>, p: T -> bool, key: T -> int, i: int)
  {
    0 <= i < |s| && p(s[i]) && forall j :: 0 <= j < i && p(s[j]) ==> key(s[j]) < key(s[i])
  }

  /** Dropping a first element that, if it satisfies `p`, has a smaller key
      keeps the position, shifted by one. */
  lemma FirstOfItsKeyShift<T>(s: seq<T>, p: T -> bool, key: T -> int, i: int)
    requires |s| > 0 && FirstOfItsKey(s[1..], p, key, i)
    requires p(s[0]) ==> key(s[0]) < key(s[i + 1])
    ensures FirstOfItsKey(s, p, key, i + 1)
  {
    forall j | 0 <= j < i + 1 && p(s[j])
      ensures key(s[j]) < key(s[i + 1])
    {
      if j > 0 {
        assert s[j] == s[1..][j - 1];
      }
    }
  }

  /** The head of the stably sorted filtered list is, among the elements
      satisfying `p`, the first in input order that carries its key. */
  lemma {:induction false} SortedFilterHead<T>(s: seq<T>, p: T -> bool, key: T -> int)
    requires |Filter(s, p)| > 0
    ensures |SortDesc(Filter(s, p), key)| > 0
    ensures exists i :: FirstOfItsKey(s, p, key, i) && s[i] == SortDesc(Filter(s, p), key)[0]
  {
    FilterHead(s, p);
    if !p(s[0]) {
      SortedFilterHead(s[1..], p, key);
      SkipHead(s, p, key);
    } else if |Filter(s[1..], p)| == 0 || key(SortDesc(Filter(s[1..], p), key)[0]) <= key(s[0]) {
      KeepHead(s, p, key);
    } else {
      SortedFilterHead(s[1..], p, key);
      PassHead(s, p, key);
    }
  }

  /** A first element that `filter` drops does not change the head. */
  lemma SkipHead<T>(s: seq<T>, p: T -> bool, key: T -> int)
    requires |s| > 0 && !p(s[0]) && |Filter(s[1..], p)| > 0
    requires exists i :: FirstOfItsKey(s[1..], p, key, i) && s[1..][i] == SortDesc(Filter(s[1..], p), key)[0]
    ensures |SortDesc(Filter(s, p), key)| > 0
    ensures exists i :: FirstOfItsKey(s, p, key, i) && s[i] == SortDesc(Filter(s, p), key)[0]
  {
    FilterHead(s, p);
    assert Filter(s, p) == Filter(s[1..], p);
    var i :| FirstOfItsKey(s[1..], p, key, i) && s[1..][i] == SortDesc(Filter(s[1..], p), key)[0];
    FirstOfItsKeyShift(s, p, key, i);
  }

  /** A kept first element whose key no later kept element beats becomes
      the head. */
  lemma KeepHead<T>(s: seq<T>, p: T -> bool, key: T -> int)
    requires |s| > 0 && p(s[0])
    requires |Filter(s[1..], p)| == 0 || key(SortDesc(Filter(s[1..], p), key)[0]) <= key(s[0])
    ensures |SortDesc(Filter(s, p), key)| > 0
    ensures exists i :: FirstOfItsKey(s, p, key, i) && s[i] == SortDesc(Filter(s, p), key)[0]
  {
    FilterHead(s, p);
    var f := Filter(s, p);
    assert f[0] == s[0] && f[1..] == Filter(s[1..], p);
    assert SortDesc(f, key)[0] == s[0];
    assert FirstOfItsKey(s, p, key, 0);
  }

  /** A kept first element with a smaller key than the head of the rest
      leaves that head in place. */
  lemma PassHead<T>(s: seq<T>, p: T -> bool, key: T -> int)
    requires |s| > 0 && p(s[0]) && |Filter(s[1..], p)| > 0
    requires key(SortDesc(Filter(s[1..], p), key)[0]) > key(s[0])
    requires exists i :: FirstOfItsKey(s[1..], p, key, i) && s[1..][i] == SortDesc(Filter(s[1..], p), key)[0]
    ensures |SortDesc(Filter(s, p), key)| > 0
    ensures exists i :: FirstOfItsKey(s, p, key, i) && s[i] == SortDesc(Filter(s, p), key)[0]
  {
    FilterHead(s, p);
    var f := Filter(s, p);
    var h := SortDesc(Filter(s[1..], p), key)[0];
    assert f[0] == s[0] && f[1..] == Filter(s[1..], p);
    assert SortDesc(f, key)[0] == h;
    var i :| FirstOfItsKey(s[1..], p, key, i) && s[1..][i] == h;
    FirstOfItsKeyShift(s, p, key, i);
  }

  /** Position of the first element satisfying `p`, or `|s|` when there is none. */
  function FirstIndex<T>(s: seq<T>, p: T -> bool): (i: nat)
    ensures i <= |s|
    ensures forall j :: 0 <= j < i ==> !p(s[j])
    ensures i < |s| ==> p(s[i])
  {
    if |s| == 0 then 0
    else if p(s[0]) then 0
    else 1 + FirstIndex(s[1..], p)
  }

  /** `find`: the first element satisfying `p`, or `null`. */
  function Find<T>(s: seq<T>, p: T -> bool): (r: Option<T>)
    ensures r.None? <==> forall x :: x in s ==> !p(x)
    ensures r.Some? ==> r.value in s && p(r.value)
    ensures r.Some? ==> exists i :: 0 <= i < |s| && s[i] == r.value && forall j :: 0 <= j < i ==> !p(s[j])
  {
    var i := FirstIndex(s, p);
    if i < |s| then Some(s[i]) else None
  }

  /** `take(n)`. */
  function Take<T>(s: seq<T>, n: nat): (r: seq<T>)
    ensures |r| == if |s| < n then |s| else n
    ensures r == s[..|r|]
  {
    if |s| < n then s else s[..n]
  }

  /** Sum of a list of integers. */
  function Sum(xs: seq<int>): int
  {
    if |xs| == 0 then 0 else xs[0] + Sum(xs[1..])
  }

  /** A sum of non-negative numbers bounds each of them. */
  lemma {:induction false} SumBoundsElement(xs: seq<int>, i: nat)
    requires i < |xs|
    requires forall j :: 0 <= j < |xs| ==> xs[j] >= 0
    ensures 0 <= xs[i] <= Sum(xs)
  {
    if i > 0 {
      SumBoundsElement(xs[1..], i - 1);
    } else if |xs| > 1 {
      SumNonNegative(xs[1..]);
    }
  }

  lemma {:induction false} SumNonNegative(xs: seq<int>)
    requires forall j :: 0 <= j < |xs| ==> xs[j] >= 0
    ensures Sum(xs) >= 0
  {
    if |xs| > 0 {
      SumNonNegative(xs[1..]);
    }
  }

  /** A list of `n` copies of `d` sums to `n * d`. */
  lemma {:induction false} SumConstant(xs: seq<int>, d: int)
    requires forall j :: 0 <= j < |xs| ==> xs[j] == d
    ensures Sum(xs) == |xs| * d
  {
    if |xs| > 0 {
      SumConstant(xs[1..], d);
    }
  }

  /** `s` is ordered by non-increasing `key`. */
  ghost predicate SortedDesc<T>(s: seq<T>, key: T -> int)
  {
    forall i, j :: 0 <= i < j < |s| ==> key(s[i]) >= key(s[j])
  }

  /** The elements of `s` whose key is exactly `k`, in their original order. */
  function WithKey<T>(s: seq<T>, key: T -> int, k: int): seq<T>
  {
    if |s| == 0 then []
    else (if key(s[0]) == k then [s[0]] else []) + WithKey(s[1..], key, k)
  }

  /** Inserts `x` into `s` in front of the first element whose key is not
      greater than `x`'s; `x` thus stays ahead of later elements with an equal
      key, which is what makes the sort below stable. */
  function InsertDesc<T>(x: T, s: seq<T>, key: T -> int): (r: seq<T>)
    ensures multiset(r) == multiset(s) + multiset{x}
  {
    if |s| == 0 || key(s[0]) <= key(x) then [x] + s
    else
      assert s == [s[0]] + s[1..];
      [s[0]] + InsertDesc(x, s[1..], key)
  }

  /** Insertion keeps a sorted list sorted. */
  lemma {:induction false} InsertDescSorted<T>(x: T, s: seq<T>, key: T -> int)
    requires SortedDesc(s, key)
    ensures SortedDesc(InsertDesc(x, s, key), key)
  {
    if |s| == 0 || key(s[0]) <= key(x) {
      var r := [x] + s;
      forall i, j | 0 <= i < j < |r|
        ensures key(r[i]) >= key(r[j])
      {
        if i > 0 {
          assert r[i] == s[i - 1] && r[j] == s[j - 1];
        } else if j > 1 {
          assert key(s[0]) >= key(s[j - 1]);
        }
      }
    } else {
      var rest := InsertDesc(x, s[1..], key);
      InsertDescSorted(x, s[1..], key);
      var r := [s[0]] + rest;
      forall j | 1 <= j < |r|
        ensures key(r[0]) >= key(r[j])
      {
        assert r[j] in multiset(rest);
        assert r[j] in multiset(s[1..]) || r[j] == x;
        if r[j] != x {
          var m :| 0 <= m < |s[1..]| && s[1..][m] == r[j];
          assert s[m + 1] == r[j];
        }
      }
      forall i, j | 0 <= i < j < |r|
        ensures key(r[i]) >= key(r[j])
      {
        if i > 0 {
          assert r[i] == rest[i - 1] && r[j] == rest[j - 1];
        }
      }
    }
  }

  /** `sortedByDescending(key)`: a stable insertion sort. */
  function SortDesc<T>(s: seq<T>, key: T -> int): (r: seq<T>)
    ensures multiset(r) == multiset(s)
    ensures |r| == |s|
    ensures SortedDesc(r, key)
  {
    if |s| == 0 then []
    else
      assert s == [s[0]] + s[1..];
      var rest := SortDesc(s[1..], key);
      InsertDescSorted(s[0], rest, key);
      var r := InsertDesc(s[0], rest, key);
      assert |r| == |multiset(r)|;
      r
  }

  /** Inserting `x` ahead of the elements with a key equal to its own keeps
      every key class in order. */
  lemma {:induction false} InsertDescStable<T>(x: T, s: seq<T>, key: T -> int, k: int)
    ensures WithKey(InsertDesc(x, s, key), key, k)
         == (if key(x) == k then [x] else []) + WithKey(s, key, k)
  {
    if |s| == 0 || key(s[0]) <= key(x) {
      assert ([x] + s)[1..] == s;
    } else {
      InsertDescStable(x, s[1..], key, k);
      var rest := InsertDesc(x, s[1..], key);
      var h0 := if key(s[0]) == k then [s[0]] else [];
      var hx := if key(x) == k then [x] else [];
      assert h0 == [] || hx == [];
      assert ([s[0]] + rest)[1..] == rest;
      assert WithKey([s[0]] + rest, key, k) == h0 + (hx + WithKey(s[1..], key, k));
      assert WithKey(s, key, k) == h0 + WithKey(s[1..], key, k);
    }
  }

  /** The sort is stable: elements with equal keys keep their relative order. */
  lemma {:induction false} SortDescStable<T>(s: seq<T>, key: T -> int, k: int)
    ensures WithKey(SortDesc(s, key), key, k) == WithKey(s, key, k)
  {
    if |s| > 0 {
      SortDescStable(s[1..], key, k);
      InsertDescStable(s[0], SortDesc(s[1..], key), key, k);
    }
  }

  /** Cutting a list short keeps, of each key class, a prefix. */
  lemma {:induction false} WithKeyPrefix<T>(s: seq<T>, n: nat, key: T -> int, k: int)
    requires n <= |s|
    ensures WithKey(s[..n], key, k) <= WithKey(s, key, k)
  {
    if n > 0 {
      var head := if key(s[0]) == k then [s[0]] else [];
      assert s[..n][0] == s[0] && s[..n][1..] == s[1..][..n - 1];
      WithKeyPrefix(s[1..], n - 1, key, k);
      assert WithKey(s[..n], key, k) == head + WithKey(s[1..][..n - 1], key, k);
      assert WithKey(s, key, k) == head + WithKey(s[1..], key, k);
    }
  }

  /** The head of the sorted list carries the greatest key of the input. */
  lemma SortDescHeadIsMax<T>(s: seq<T>, key: T -> int, x: T)
    requires x in s
    ensures |SortDesc(s, key)| > 0
    ensures key(x) <= key(SortDesc(s, key)[0])
  {
    var r := SortDesc(s, key);
    assert x in multiset(r);
    var j :| 0 <= j < |r| && r[j] == x;
    if j > 0 {
      assert key(r[0]) >= key(r[j]);
    }
  }
}

=== FILE: text.dfy ===
/** Number rendering the core does through Kotlin's `toString`, `toString(16)`
    and `padStart`, and the parsers that invert it. */
module Text {
  import opened Wrappers

  /** Kotlin renders digits beyond 9 as lower-case letters. */
  const DigitChars := "0123456789abcdef"

  /** The value of a digit character, or -1 for anything else. */
  function DigitValue(c: char): int
  {
    if '0' <= c <= '9' then c as int - '0' as int
    else if 'a' <= c <= 'f' then c as int - 'a' as int + 10
    else -1
  }

  predicate IsDigits(s: string, radix: nat)
  {
    forall i :: 0 <= i < |s| ==> 0 <= DigitValue(s[i]) < radix
  }

  /** The positional value of a digit string (most significant digit first). */
  function DigitsValue(s: string, radix: nat): int
  {
    if |s| == 0 then 0
    else DigitsValue(s[..|s| - 1], radix) * radix + DigitValue(s[|s| - 1])
  }

  function Pow(b: nat, k: nat): nat
  {
    if k == 0 then 1 else b * Pow(b, k - 1)
  }

  /** The digit character Kotlin writes for the digit value `d`. */
  function DigitChar(d: nat): (c: char)
    requires d < 16
    ensures DigitValue(c) == d
  {
    DigitChars[d]
  }

  /** Kotlin's `toString(radix)` for a non-negative number: no leading zeros,
      and "0" for zero. */
  function NatToString(n: nat, radix: nat): (s: string)
    requires 2 <= radix <= 16
    ensures 1 <= |s|
    ensures IsDigits(s, radix)
    ensures |s| > 1 ==> s[0] != '0'
    decreases n
  {
    if n < radix then [DigitChar(n)]
    else
      DivisionFacts(n, radix);
      var prefix := NatToString(n / radix, radix);
      var s := prefix + [DigitChar(n % radix)];
      assert s[0] == prefix[0];
      s
  }

  lemma DivisionFacts(n: nat, radix: nat)
    requires 2 <= radix <= n
    ensures 1 <= n / radix < n
    ensures n == (n / radix) * radix + n % radix
  {
  }

  /** Reading the rendered digits back gives the number. */
  lemma {:induction false} NatToStringValue(n: nat, radix: nat)
    requires 2 <= radix <= 16
    ensures DigitsValue(NatToString(n, radix), radix) == n
    decreases n
  {
    if n >= radix {
      DivisionFacts(n, radix);
      var prefix := NatToString(n / radix, radix);
      var s := prefix + [DigitChar(n % radix)];
      assert s[..|prefix|] == prefix;
      NatToStringValue(n / radix, radix);
      assert DigitsValue(s, radix) == (n / radix) * radix + n % radix;
    }
  }

  /** A number below `radix^k` needs at most `k` digits. */
  lemma {:induction false} NatToStringLength(n: nat, radix: nat, k: nat)
    requires 2 <= radix <= 16
    requires 1 <= k
    requires n < Pow(radix, k)
    ensures |NatToString(n, radix)| <= k
    decreases n
  {
    if n >= radix {
      var p := Pow(radix, k - 1);
      assert Pow(radix, k) == radix * p;
      DivisionFacts(n, radix);
      QuotientBound(n, radix, p);
      NatToStringLength(n / radix, radix, k - 1);
    }
  }

  lemma QuotientBound(n: nat, d: nat, p: nat)
    requires 0 < d
    requires n < d * p
    ensures n / d < p
  {
  }

  /** Reads a non-empty digit string back; `None` when it is not one. */
  function ParseNat(s: string, radix: nat): (r: Option<nat>)
    ensures r.Some? <==> 1 <= |s| && IsDigits(s, radix)
  {
    if 1 <= |s| && IsDigits(s, radix) then
      DigitsValueNonNegative(s, radix);
      Some(DigitsValue(s, radix))
    else None
  }

  lemma {:induction false} DigitsValueNonNegative(s: string, radix: nat)
    requires IsDigits(s, radix)
    ensures DigitsValue(s, radix) >= 0
  {
    if |s| > 0 {
      DigitsValueNonNegative(s[..|s| - 1], radix);
    }
  }

  /** Kotlin's decimal `toString` of an integer: a leading '-' for negatives. */
  function IntToDecimal(n: int): (s: string)
    ensures 1 <= |s|
    ensures ParseInt(s) == Some(n)
    ensures (s[0] == '-') == (n < 0)
    ensures var digits := if n < 0 then s[1..] else s;
      |digits| > 1 ==> digits[0] != '0'
  {
    if n < 0 then
      var digits := NatToString(-n, 10);
      ParseNatRoundTrip(-n, 10);
      ParseNegative(digits, -n);
      "-" + digits
    else
      var digits := NatToString(n, 10);
      ParseNatRoundTrip(n, 10);
      ParseUnsigned(digits, n);
      digits
  }

  /** A '-' followed by digits reads as the negated digits. */
  lemma ParseNegative(digits: string, v: nat)
    requires ParseNat(digits, 10) == Some(v)
    ensures ParseInt("-" + digits) == Some(0 - v as int)
    ensures ("-" + digits)[0] == '-' && ("-" + digits)[1..] == digits
  {
    assert ("-" + digits)[1..] == digits;
  }

  /** Digits with no sign read as themselves. */
  lemma ParseUnsigned(digits: string, v: nat)
    requires ParseNat(digits, 10) == Some(v)
    ensures ParseInt(digits) == Some(v)
    ensures digits[0] != '-'
  {
    assert DigitValue(digits[0]) >= 0;
  }

  lemma ParseNatRoundTrip(n: nat, radix: nat)
    requires 2 <= radix <= 16
    ensures ParseNat(NatToString(n, radix), radix) == Some(n)
  {
    NatToStringValue(n, radix);
  }

  /** Reads an optionally negative decimal integer. */
  function ParseInt(s: string): Option<int>
  {
    if 1 <= |s| && s[0] == '-' then
      match ParseNat(s[1..], 10)
      case Some(v) =>
        var negative: int := 0 - (v as int);
        Some(negative)
      case None => None
    else
      match ParseNat(s, 10)
      case Some(v) => Some(v)
      case None => None
  }

  /** Kotlin's `padStart(length, c)`. */
  function PadStart(s: string, length: nat, c: char): (r: string)
    ensures |r| == if |s| < length then length else |s|
    ensures r[|r| - |s|..] == s
    ensures forall i :: 0 <= i < |r| - |s| ==> r[i] == c
  {
    if |s| >= length then s else seq(length - |s|, _ => c) + s
  }

  /** Leading zeros do not change the value of a digit string. */
  lemma {:induction false} LeadingZeros(zeros: string, s: string, radix: nat)
    requires forall i :: 0 <= i < |zeros| ==> zeros[i] == '0'
    ensures DigitsValue(zeros + s, radix) == DigitsValue(s, radix)
    decreases |s|
  {
    if |s| == 0 {
      assert zeros + s == zeros;
      AllZeros(zeros, radix);
    } else {
      var init := s[..|s| - 1];
      assert (zeros + s)[..|zeros + s| - 1] == zeros + init;
      LeadingZeros(zeros, init, radix);
    }
  }

  lemma {:induction false} AllZeros(zeros: string, radix: nat)
    requires forall i :: 0 <= i < |zeros| ==> zeros[i] == '0'
    ensures DigitsValue(zeros, radix) == 0
  {
    if |zeros| > 0 {
      AllZeros(zeros[..|zeros| - 1], radix);
    }
  }

  /** `needle` occurs in `hay` starting at position `i`. */
  predicate OccursAt(hay: string, needle: string, i: int)
  {
    0 <= i <= |hay| - |needle| && hay[i..i + |needle|] == needle
  }

  /** `needle` occurs somewhere inside `hay` (Kotlin's `contains`). */
  predicate Contains(hay: string, needle: string)
  {
    exists i | 0 <= i <= |hay| :: OccursAt(hay, needle, i)
  }

  /** Kotlin's `Char.isWhitespace`: the control characters 9-13 and 28-31,
      the space, and the Unicode space, line and paragraph separators. */
  predicate IsWhitespace(c: char)
  {
    var u := c as int;
    9 <= u <= 13 || 28 <= u <= 32 || u == 0xA0 || u == 0x1680 || 0x2000 <= u <= 0x200A
    || u == 0x2028 || u == 0x2029 || u == 0x202F || u == 0x205F || u == 0x3000
  }

  /** Kotlin's `isBlank`: empty or whitespace only. */
  predicate IsBlank(s: string)
  {
    forall i :: 0 <= i < |s| ==> IsWhitespace(s[i])
  }
}

=== FILE: wrappers.dfy ===
/** Optional values and success/failure results: the model's stand-ins for
    Kotlin's nullable types and for the exceptions the source throws. */
module Wrappers {

  /** A Kotlin `T?`: `None` plays the part of `null`. */
  datatype Option<+T> = None | Some(value: T) {

    /** The `?:` (elvis) operator. */
    function GetOr(default: T): T {
      match this
      case Some(v) => v
      case None => default
    }
  }

  /** The outcome of an operation that may throw: `Failure` carries what would
      have been thrown. */
  datatype Result<+R, +E> = Success(value: R) | Failure(error: E)
}
